=== FILE: README.md ===
# E-Voting System: a Dafny model of the voting core

This project models the server and client logic of a small online voting system:

- Voters register with a name, e-mail and password. They confirm the address with a four-digit one-time passcode and log in.
- They cast one ballot per active election and can see their own vote history.
- Administrators create, edit, toggle and delete elections, and add, edit and remove candidates.
- Administrators see an audit log of who voted where, with the candidate stripped.
- The results page holds a bar chart that follows the server's `voteUpdate` broadcasts.

The database is a single immutable `Store`:

- users, elections and candidates are maps keyed by document id;
- ballots are a sequence, in insertion order.

Each controller action is a pure function from a store and the request to a new store and a `Result`. A `Result` is a success value or one of the error replies, and `Replies.HttpStatus` gives each error's status code. The store invariants are:

- `TalliesMatch`: every candidate's `voteCount` equals the number of ballots naming it;
- `BallotsUnique`: the unique (voter, election) index on ballots;
- `UsersWellFormed`: normalised, distinct e-mails and the user schema's validators.

Environment-supplied values are parameters:

- new document ids;
- the clock (`now`);
- the random OTP draw;
- the random reset token;
- bcrypt salts.

Both hash functions are ideal:

- `Bcrypt(plain, salt)` stands for bcrypt;
- `Sha256(preimage)` stands for SHA-256.

A JWT becomes `Credential`/`Token`: either a verifiable id or a token that fails verification.

JavaScript value semantics are modelled explicitly:

- the empty string is falsy, so `a || b` is `Text.OrElse`;
- an absent request field is `None` in the handlers that call a method on it or pass it to a query (login, passcode verification and resend, the reset request); the others only test it for truthiness, so there absent and `""` are both written `""`;
- Mongoose drops a query condition whose value is `undefined`, so a lookup on an absent field matches as if that condition were not there;
- `String.prototype.trim` strips the ECMAScript white-space and line-terminator set;
- `\s` in the name regex is the same set;
- an unparseable date is `None`, and every comparison against it is false; in an update request a date is absent, unparseable or a time (`ElectionController.DateField`), because an unparseable non-empty string replaces the stored date and then fails the save.

The files:

- `common.dfy`: ids, `Option`, counting, the error replies, and the least element of a set (for `findOne`).
- `text.dfy`: trimming, lower-casing, e-mail normalisation, and the name rule.
- `election_model.dfy`, `user_model.dfy`, `vote_model.dfy`, `otp.dfy`: the documents and their schema rules.
- `store.dfy`: the database and its invariants.
- `vote_controller.dfy`, `election_controller.dfy`, `candidate_controller.dfy`, `auth_controller.dfy`: the endpoints.
- `results_page.dfy`, `voter_dashboard.dfy`, `admin_dashboard.dfy`: the client pages' logic.

Points where the code is easy to misread:

- Nothing on the server orders an election's dates. Only the admin form checks that the end comes after the start (client/src/pages/AdminDashboard.jsx:68-71). The schema, `createElection` and `updateElection` all accept reversed dates (`ElectionModel.NoDateOrderConstraint`, `AdminDashboard.ServerAcceptsReversedDates`).
- `createElection` never forwards a `status` from the request, so every new election is inactive.

## Model

Some functions that model a source function directly carry only their definition as a contract. Their meaning is stated by the lemma row named here instead:

- `CandidateController.GetCandidates` (candidateController.js `getCandidates`) by `CandidateController.ListingsPartition`
- `VoteController.Populate` (the `populate` call in `getVoteHistory`) by `VoteController.VoteHistory` and `CandidateController.HistoryOutlivesCandidate`
- `VoteController.WithoutCandidate` (`select('-candidateId')` in `getAllVotes`) by `VoteController.WithoutCandidateForgetsChoice`
- `ResultsPage.ChartOf` (the chart data in Results.jsx) by `ResultsPage.ChartShowsTallies`
- `ResultsPage.FetchedHistory` (the history fetch in Results.jsx) by `ResultsPage.ResultsVisibility`
- `VoterDashboard.ActiveOnly` (the active filter in VoterDashboard.jsx) by `VoterDashboard.ActiveFilterRedundant`
- `VoterDashboard.ClickCard` (the card click handler in VoterDashboard.jsx) by `VoterDashboard.OnePanelAtATime`

| member | source | states |
|---|---|---|
| Replies.HttpStatus | server/controllers/voteController.js:16-27 | every error reply is a 4xx/5xx status, and it is 404 exactly for the three not-found errors |
| Least.LeastOf | server/controllers/authController.js:31 | `findOne` yields a matching document, and a deterministic one (the least id) |
| Text.OrElse | server/controllers/electionController.js:86-90 | `given \|\| current` yields one of the two: the given value whenever it is non-empty, and an empty result only when both are empty |
| Text.OrElseLaws | server/controllers/electionController.js:86-90 | on strings `\|\|` is associative with the empty string as unit on both sides, and offering the same value again changes nothing |
| Text.Lower | server/controllers/authController.js:29 | lower-casing keeps the length, leaves no upper-case ASCII letter, and changes nothing but upper-case letters, each to its lower-case partner |
| Text.LowerLaws | server/controllers/authController.js:29 | lower-casing is idempotent and distributes over concatenation |
| Text.TrimLowerCommute | server/controllers/authController.js:29 | trimming and lower-casing commute, so the order in `email.trim().toLowerCase()` does not matter |
| Text.Trim | server/controllers/authController.js:29 | `trim` returns a contiguous middle part of the input; what it cuts off on either side is all white space, and its own first and last characters are not, which determines the result |
| Text.TrimPadding | server/controllers/authController.js:29 | `trim` removes any white-space padding on both sides and nothing else |
| Text.NormalizeEmailVariants | server/controllers/authController.js:29-31 | a padded, differently-cased spelling of an address normalises to the same key |
| Text.NormalizeEmailIdempotent | server/controllers/authController.js:130 | normalising a normalised address changes nothing, so a stored address is found by its own spelling |
| ElectionModel.ParseStatus | server/models/Election.js:19-23 | the status enum accepts exactly "active", "inactive" and "completed", and names what it parsed |
| ElectionModel.StatusRoundTrip | server/models/Election.js:19-23 | parsing a status's name gives back that status |
| ElectionModel.NewElection | server/models/Election.js:4-23 | a new election needs a title and both dates; it starts inactive with the given fields |
| ElectionModel.NoDateOrderConstraint | server/models/Election.js:11-18 | the schema accepts an end date before the start date |
| UserModel.ParseRole | server/models/User.js:19-23 | the role enum accepts exactly "admin" and "voter" |
| UserModel.HashOnSave | server/models/User.js:39-44 | the save hook re-hashes exactly when a new password was written, and otherwise keeps the stored hash |
| UserModel.NewUser | server/models/User.js:4-36 | user creation succeeds exactly when the name, e-mail and password validators pass; the result is unverified, has not voted, carries the OTP and matches the given password |
| UserModel.IssueResetToken | server/models/User.js:52-67 | the caller gets the raw token; the document keeps only its digest and an expiry ten minutes on, and changes nothing else |
| VoteModel.InsertBallot | server/models/Vote.js:21-22 | the unique index refuses a ballot exactly when one with the same voter and election exists; otherwise it appends and keeps keys unique |
| VoteModel.AtMostOneBallot | server/models/Vote.js:21-22 | under the unique index a voter holds at most one ballot per election, and exactly one when `HasBallot` holds |
| Store.TallyZeroUnreferenced | server/controllers/voteController.js:36-41 | a candidate named by no ballot has tally zero |
| Otp.OtpValue | server/controllers/authController.js:75 | the drawn passcode is between 1000 and 9999 |
| Otp.FourDigitsRoundTrip | server/controllers/authController.js:75 | the passcode's decimal text reads back as the same number |
| Otp.OtpCodeInjective | server/controllers/authController.js:75 | distinct passcodes have distinct texts |
| VoteController.CastVote | server/controllers/voteController.js:9-57 | checks run in order: election exists, it is active, no earlier ballot. A success appends exactly one ballot, raises only that candidate's tally, and emits the new tally, or 0 for a missing candidate. A failure changes nothing |
| VoteController.CastVoteRequest | server/controllers/voteController.js:9-57 | a request without `candidateId` gets the same 404 or 400 as any cast when the election or duplicate check refuses it; when those checks pass, the `required` validator on the ballot makes it 500, and in every case nothing is stored |
| VoteController.CastPreservesUniqueness | server/controllers/voteController.js:23-34 | casting keeps the one-ballot-per-voter-and-election invariant |
| VoteController.CastPreservesTallies | server/controllers/voteController.js:29-41 | casting keeps every stored tally equal to its ballot count |
| VoteController.EmittedCountIsTally | server/controllers/voteController.js:43-50 | the broadcast count equals the candidate's ballot count after the cast |
| VoteController.RecastRejected | server/controllers/voteController.js:23-27 | a second cast by the same voter in the same election is refused whichever candidate it names, and changes nothing |
| VoteController.CastIgnoresDates | server/controllers/voteController.js:14-21 | casting depends on the election's status only, never on its start or end date |
| VoteController.CastAllPreservesInvariants | server/controllers/voteController.js:9-57 | any sequence of casts keeps both ballot invariants |
| VoteController.LaterCastsRejected | server/controllers/voteController.js:23-27 | once a voter holds a ballot, every further cast of theirs in that election fails with nothing changed |
| VoteController.OneBallotPerVoter | server/controllers/voteController.js:23-34 | of a run of casts by one voter in an open election, the first succeeds, the rest are refused, and exactly one ballot is added |
| VoteController.BallotsByVoter | server/controllers/voteController.js:64 | the history query returns only the voter's ballots, all of them, as many as they hold |
| VoteController.BallotsByVoterAppend | server/controllers/voteController.js:64 | the query keeps stored order: the voter's earlier ballots come before later ones |
| VoteController.HistoryAfterCast | server/controllers/voteController.js:29-34 | a successful cast appends the new ballot to the end of the caster's history and leaves every other voter's history unchanged |
| CandidateController.HistoryOutlivesCandidate | server/controllers/candidateController.js:66-79 | deleting a candidate keeps every history entry in place, with its election and time; an entry whose ballot named that candidate now carries no candidate at all (the populated `candidateId` is null, so not even the id remains), and every other entry is unchanged |
| VoteController.VoteHistory | server/controllers/voteController.js:62-69 | the history has one entry per ballot of the voter, in the order of `BallotsByVoter`, each carrying its candidate's id, name and party while the candidate exists and no candidate (null) once it is deleted |
| VoteController.HistoryIffBallot | server/controllers/voteController.js:64 | the history has an entry for an election exactly when the voter holds a ballot there, whatever became of the candidate |
| VoteController.WithoutCandidateForgetsChoice | server/controllers/voteController.js:79 | two ballot lists give the same audit rows exactly when they differ at most in the candidates named |
| VoteController.SortNewestFirst | server/controllers/voteController.js:80 | the audit sort is a permutation ordered newest first |
| VoteController.AllVotes | server/controllers/voteController.js:74-87 | the audit log lists every ballot exactly once, candidate removed, newest first |
| VoteController.AuditIgnoresChoice | server/controllers/voteController.js:79 | two stores differing only in the candidates chosen give the same audit log (ballot secrecy) |
| VoteController.AuditCoversBallots | server/controllers/voteController.js:76-80 | every ballot appears in the audit log |
| VoteController.CastVoteChecked | server/controllers/voteController.js:9-57 | the corrected cast: as the original, but it refuses a candidate that is missing or stands in another election |
| VoteController.CheckedCastPreservesInvariants | server/controllers/voteController.js:29-41 | the corrected cast keeps both ballot invariants and records only ballots whose candidate stands in the election |
| ElectionController.ListElections | server/controllers/electionController.js:8-37 | an existing admin with a valid token sees every election; anyone else sees exactly the active ones |
| ElectionController.BadTokenIsPublic | server/controllers/electionController.js:21-23 | an unverifiable token gives the public listing, not an error |
| ElectionController.AdminSeesAll | server/controllers/electionController.js:26-31 | an admin's listing is the whole collection |
| ElectionController.GetElection | server/controllers/electionController.js:42-52 | the lookup by id has no role filter: it agrees with every listing that shows the election, finds exactly what an admin's listing shows, and also returns inactive elections that the public listing hides; an unlisted id is 404 |
| ElectionController.CreateElection | server/controllers/electionController.js:57-71 | creation succeeds exactly with a fresh id, a title and both dates; the new election is always inactive; failure is 400 with nothing stored |
| ElectionController.ApplyPatch | server/controllers/electionController.js:84-92 | each non-empty field replaces the stored one and each empty or absent one keeps it; a non-empty date that does not parse, or an unknown status spelling, fails the save |
| ElectionController.EmptyPatchIsIdentity | server/controllers/electionController.js:86-90 | an update with no fields changes nothing |
| ElectionController.PatchIdempotent | server/controllers/electionController.js:86-92 | applying the same update twice equals applying it once |
| ElectionController.UpdateElection | server/controllers/electionController.js:76-97 | a missing election is 404; a rejected save (an unparseable date or an unknown status) is 500 with nothing changed; otherwise only that election is replaced by the patched one |
| ElectionController.DeleteElection | server/controllers/electionController.js:102-116 | a missing election is 404; otherwise only that election is removed |
| ElectionController.CreatedIsHidden | server/controllers/electionController.js:57-71 | a created election is fetchable by id but absent from the public listing until activated; deleting it restores the store |
| ElectionController.DeletedIsGone | server/controllers/electionController.js:102-116 | after deletion the election is not found and listed to nobody |
| ElectionController.DeleteLeavesDanglingReferences | server/controllers/electionController.js:110 | deleting an election keeps its candidates and ballots, and both ballot invariants still hold |
| CandidateController.ListingsPartition | server/controllers/candidateController.js:7-14 | the per-election listings partition the candidates: each is listed under its own election, as stored, and under no other |
| CandidateController.AddCandidate | server/controllers/candidateController.js:19-38 | adding needs an existing election (else 404) and a fresh id; the new candidate has zero votes |
| CandidateController.AddPreservesTallies | server/controllers/candidateController.js:29-33 | adding a candidate with no ballots keeps tallies matching |
| CandidateController.UpdateCandidate | server/controllers/candidateController.js:43-61 | a missing candidate is 404; otherwise only name and party change, each only when given, and tally and election are kept |
| CandidateController.UpdatePreservesTallies | server/controllers/candidateController.js:51-56 | editing a candidate keeps tallies matching |
| CandidateController.AddedIsListed | server/controllers/candidateController.js:19-38 | a new candidate appears in its election's list with zero votes, other elections' lists are unchanged, and deleting it restores the store |
| CandidateController.DeletedIsUnlisted | server/controllers/candidateController.js:66-79 | a deleted candidate is listed under no election |
| CandidateController.DeleteCandidate | server/controllers/candidateController.js:66-79 | a missing candidate is 404; otherwise only that candidate is removed |
| CandidateController.DeletePreservesTallies | server/controllers/candidateController.js:74 | removal keeps the remaining tallies matching, and the removed candidate's ballots stay |
| AuthController.FindByEmail | server/controllers/authController.js:31 | the lookup finds a user with that exact address exactly when one exists |
| AuthController.FindByEmailUnique | server/models/User.js:10-14 | with unique addresses, looking up a user's address gives that user |
| AuthController.FindByOtp | server/controllers/authController.js:276-280 | the passcode lookup finds a user exactly when one has that address, that code and an unexpired code |
| AuthController.FindByResetToken | server/controllers/authController.js:243-246 | the reset lookup finds a user exactly when one has that digest and an unexpired token |
| AuthController.Reissue | server/controllers/authController.js:39-48 | re-registering an unverified user replaces the name, password and passcode and nothing else |
| AuthController.CreateAccount | server/controllers/authController.js:79-87 | account creation succeeds exactly with a fresh id, a valid role or none, and valid fields; the role defaults to voter |
| AuthController.Register | server/controllers/authController.js:16-121 | missing fields, then a bad name, then a verified duplicate are refused in that order; an unverified duplicate is re-issued; otherwise an account is created; the passcode e-mailed is the drawn one (the reply itself carries it only as `debugOtp`, when the e-mail fails) |
| AuthController.ReissuePreservesWellFormed | server/controllers/authController.js:44-48 | re-issuing keeps the user collection well-formed |
| AuthController.CreateAccountPreservesWellFormed | server/controllers/authController.js:79-87 | creating an account under a new normalised address keeps the collection well-formed |
| AuthController.RegisterPreservesWellFormed | server/controllers/authController.js:16-121 | registration keeps addresses normalised and distinct and every user valid |
| AuthController.Login | server/controllers/authController.js:126-157 | login succeeds exactly for a known normalised address with the right password, when the user is verified or an admin; an unverified voter gets the needs-verification reply; otherwise 401 |
| AuthController.VerifyOtp | server/controllers/authController.js:272-306 | a matching, unexpired passcode verifies that user and clears the passcode; otherwise 400 with nothing changed |
| AuthController.VerifyOtpPreservesWellFormed | server/controllers/authController.js:286-289 | verification keeps the user collection well-formed |
| AuthController.OtpNotReplayable | server/controllers/authController.js:286-289 | a used passcode cannot verify again, at any later time |
| AuthController.ResendOtp | server/controllers/authController.js:308-333 | an unknown address is 404 and a verified one is 400; otherwise only that user's passcode and expiry change |
| AuthController.ResendOtpPreservesWellFormed | server/controllers/authController.js:315-318 | a resend keeps the user collection well-formed |
| AuthController.ResendReplacesCode | server/controllers/authController.js:315-318 | after a resend the new code verifies the user until its one-minute expiry, and every other code, the earlier one included, is refused |
| AuthController.LoginRequest | server/controllers/authController.js:126-157 | without an e-mail the handler throws and answers 500; without a password a known address answers 500 and an unknown one 401; with both it is `Login` |
| AuthController.ResendOtpRequest | server/controllers/authController.js:308-313 | without an e-mail the handler throws and answers 500; otherwise it is `ResendOtp` |
| AuthController.FindByLiveOtp | server/controllers/authController.js:276-280 | with the passcode condition dropped, the lookup finds a user exactly when one has the address and an unexpired passcode |
| AuthController.VerifyOtpAsWritten | server/controllers/authController.js:272-306 | without an e-mail the handler answers 500; without a passcode it verifies whoever holds the address and a live passcode; otherwise it is `VerifyOtp` |
| AuthController.MissingOtpVerifies | server/controllers/authController.js:276-280 | a request naming only a freshly registered address verifies that account without its passcode |
| AuthController.VerifyOtpRequest | server/controllers/authController.js:272-306 | the corrected request refuses a missing passcode like a wrong one; any success names a user holding exactly the code sent |
| AuthController.VerifyNeedsCode | server/controllers/authController.js:276-289 | with the passcode required, leaving it out changes nothing, and the owner is verified exactly by their live code |
| AuthController.RegisteredVoter | server/controllers/authController.js:74-87 | a first registration without a role stores an unverified voter under the normalised address, with the given password and the drawn passcode |
| AuthController.VerifyOwner | server/controllers/authController.js:276-289 | the owner's live passcode verifies exactly the owner and keeps addresses unique |
| AuthController.SignUpLifecycle | server/controllers/authController.js:75-87 | a fresh voter cannot log in before verifying; the mailed passcode verifies the account within one minute, the account can then log in, and the passcode cannot be reused |
| AuthController.ExpiredOtpRejected | server/controllers/authController.js:76 | after one minute the mailed passcode is refused |
| AuthController.DeleteUser | server/controllers/authController.js:345-364 | a missing user is 404; an admin deleting themself gets 400; otherwise exactly that user is removed |
| AuthController.DeleteMe | server/controllers/authController.js:366-395 | self-deletion needs both fields, the caller's own normalised address and the right password; only then is exactly the caller removed |
| AuthController.DeletePreservesWellFormed | server/controllers/authController.js:358 | deleting users keeps the collection well-formed |
| AuthController.ForgotPasswordAsWritten | server/controllers/authController.js:175-228 | the reset request as written looks the address up verbatim, and without one takes whatever user `findOne({})` yields; a found user, and only that user, gets a fresh token digest and expiry; the raw token goes out only in the reset link, and the reply says just "Email sent" |
| AuthController.ForgotPasswordMissesCaseVariant | server/controllers/authController.js:181 | a capitalised address that logs in fine is "not found" by the reset request as written |
| AuthController.ForgotPassword | server/controllers/authController.js:175-228 | the corrected reset request succeeds exactly when login would find the user |
| AuthController.ForgotPasswordPreservesWellFormed | server/controllers/authController.js:188-190 | issuing a reset token, as written or corrected, keeps the user collection well-formed |
| AuthController.ResetPassword | server/controllers/authController.js:233-267 | a matching, unexpired token sets the new password and clears the token, and nothing else in the store changes; otherwise 400 or 500 with nothing changed |
| AuthController.ResetPasswordPreservesWellFormed | server/controllers/authController.js:252-257 | a reset keeps the user collection well-formed |
| AuthController.ResetOwner | server/controllers/authController.js:243-257 | a live token held by one user resets exactly that user's password, keeps addresses unique, and leaves nobody holding the token |
| AuthController.ResetRoundTrip | server/controllers/authController.js:188-257 | a token issued by the reset request, used within ten minutes, lets the user log in with the new password and cannot be used again |
| ResultsPage.ApplyVoteUpdate | client/src/pages/Results.jsx:114-123 | an event for another election is ignored; otherwise only the named candidate's row takes the broadcast count, and order, ids and names are kept |
| ResultsPage.VoteUpdateIdempotent | client/src/pages/Results.jsx:116-119 | a repeated event leaves the same rows |
| ResultsPage.ChartShowsTallies | client/src/pages/Results.jsx:78-80 | on a page in step with a consistent store, each existing candidate's bar stands at the number of ballots naming it, under that candidate's name |
| ResultsPage.ChartLabelsStable | client/src/pages/Results.jsx:114-123 | a live update never changes the labels, and moves no bar but the named candidate's |
| ResultsPage.ResultsVisibility | client/src/pages/Results.jsx:198 | with the server's history, a logged-in user sees an election's tallies exactly when they are an admin or hold a ballot there |
| ResultsPage.LoggedOutLocked | client/src/pages/Results.jsx:198 | a logged-out visitor never sees tallies |
| ResultsPage.LiveTallyInSync | client/src/pages/Results.jsx:114-123 | with the candidate check, a page in step with the server stays in step after any cast |
| ResultsPage.LiveTallyDriftsAsWritten | server/controllers/voteController.js:29-50 | with the cast as written, a page in step with the server falls out of step |
| VoterDashboard.ActiveFilterRedundant | client/src/pages/VoterDashboard.jsx:15-16 | the listing it asks for without a token is already exactly the active elections |
| VoterDashboard.ActiveFilterOfAdminListing | client/src/pages/VoterDashboard.jsx:16 | filtering an admin's listing gives the public listing |
| VoterDashboard.Label | client/src/pages/VoterDashboard.jsx:30 | the candidate's name when present and non-empty, else "Unknown", so never empty |
| VoterDashboard.HistoryMapping | client/src/pages/VoterDashboard.jsx:28-31 | the mapping has a key for exactly the elections in the history, each with a non-empty label |
| VoterDashboard.LastEntryWins | client/src/pages/VoterDashboard.jsx:29-31 | an election has a key exactly when the history has an entry for it, and its label comes from the last such entry |
| VoterDashboard.HasVotedIffEntry | client/src/pages/VoterDashboard.jsx:89 | a card is marked voted exactly when the history has an entry for it |
| VoterDashboard.HasVotedIffBallot | client/src/pages/VoterDashboard.jsx:89 | with the server's history, a card is marked voted exactly when the voter holds a ballot there |
| VoterDashboard.VotedAfterCast | client/src/pages/VoterDashboard.jsx:53-62 | after a successful vote and the history reload, that card is marked voted |
| VoterDashboard.FetchCandidatesCached | client/src/pages/VoterDashboard.jsx:38-46 | any cached list, even empty, blocks a refetch; a failed fetch keeps the cache; otherwise the reply is stored |
| VoterDashboard.CacheNeverRefreshes | client/src/pages/VoterDashboard.jsx:39 | once cached, an election's list is never refreshed |
| VoterDashboard.OnePanelAtATime | client/src/pages/VoterDashboard.jsx:113-119 | a click closes every other card's ballot panel and opens the clicked one's unless it was open or voted; clicking the same card twice undoes the first click when no other was open |
| VoterDashboard.NoPanelAfterVoting | client/src/pages/VoterDashboard.jsx:140 | the ballot panel never opens for an election the voter has voted in |
| AdminDashboard.CheckCreationForm | client/src/pages/AdminDashboard.jsx:55-71 | the start check comes first, then the end check; each fires exactly when its comparison is true on JS dates |
| AdminDashboard.SubmitIffOrdered | client/src/pages/AdminDashboard.jsx:62-71 | for parseable dates, the form is posted exactly when the start is at most five minutes old and the end is after it |
| AdminDashboard.InvalidDatesSubmit | client/src/pages/AdminDashboard.jsx:58-71 | an unparseable start date passes both checks |
| AdminDashboard.FormThenCreateOrdered | client/src/pages/AdminDashboard.jsx:55-86 | an election created through the form ends after it starts and starts no more than five minutes in the past |
| AdminDashboard.ServerAcceptsReversedDates | server/controllers/electionController.js:57-71 | the server by itself creates an election that ends before it starts |
| AdminDashboard.ToggleTarget | client/src/pages/AdminDashboard.jsx:136 | the toggle sends "inactive" for an active election and "active" for any other |
| AdminDashboard.TogglePatch | client/src/pages/AdminDashboard.jsx:143 | the toggle request carries the status only |
| AdminDashboard.ToggleViaUpdate | client/src/pages/AdminDashboard.jsx:135-148 | toggling an existing election always succeeds and flips only its status |
| AdminDashboard.ToggleTwice | client/src/pages/AdminDashboard.jsx:135-148 | toggling twice restores an active or inactive election; a completed one comes back inactive |

## Left out

- Concurrency: two simultaneous casts racing past the duplicate check. The model runs requests one after another. The unique index's refusal is modelled (`CastVote` returns `ServerError`), but no interleaving produces it.
- Socket.IO fan-out: one `voteUpdate` event is applied to one page; delivery, ordering and reconnects are not modelled.
- The cryptography:
  - bcrypt, SHA-256 and JWT signing are ideal hashes and an abstract token;
  - the 30-day JWT expiry is folded into "verifiable or not";
  - the random OTP and reset token are parameters.
- E-mail delivery (`sendEmail`, the reset-link log) and the `debugOtp` fallback reply: they are output only.
- The authentication middleware and `getMe`/`getUsers`: these only project users without the password. Role checks on admin routes sit in middleware that is not part of this model, so the endpoint functions assume an authorised caller.
- Malformed ObjectId strings, which make Mongoose throw a cast error (400 or 500 depending on the endpoint): ids are numbers here, so every id is well-formed.
- The candidate document's own schema (validators on name and party) is not part of this model; a candidate is its four fields.
- The audit log's populated voter name, e-mail and election title: the log is modelled by ids only.
- `hasVoted` on the user: it is never written by any endpoint, so it stays at its default.
- `deleteMe`: modelled as `AuthController.DeleteMe`, although the auth router exposes no route for it.
- Routing differences, such as the reset endpoint being mounted as POST while its comment says PUT.
- Text.Lower: lower-cases ASCII letters only; `toLowerCase` maps all of Unicode. Non-ASCII addresses are outside the model.
- Dates are integer milliseconds. Date parsing of request strings is reduced to "parses to a time" or "does not" (`Option<Time>`), and time zones and formatting are left out.
- The other client pages (landing, login, register, activity, users), rendering and styling, the chart's colours, and loading spinners.
- Results page: the election listing is the server's, unfiltered on the client, and is covered by `ElectionController.ListElections`.
- Absent fields elsewhere: registration, `deleteMe`, the candidate and election writes test their fields for truthiness first, so an absent field behaves as `""` and is written so. A field sent with a non-string JSON value (a number, an object) is not modelled.
- `castVote` without `electionId`: what `Election.findById(undefined)` yields is Mongoose behaviour outside the model; only an absent `candidateId` is modelled (`VoteController.CastVoteRequest`).
- VoterDashboard.HistoryMapping: keys are election ids. The JS object keys are id strings, so this is the same lookup.

## Findings

| source | as written | input that shows it | evidently intended | confidence | as-written member | corrected member |
|---|---|---|---|---|---|---|
| server/controllers/voteController.js:29-41 | a ballot is recorded and the named candidate's tally raised without checking that the candidate stands in the election voted in | elections 1 and 2 active, candidate 10 standing in election 1; a voter casts in election 2 for candidate 10; the page showing election 1 drops the event, and its tally for 10 goes stale | the candidate must belong to the election; otherwise refuse with "Candidate not found" | not executed | ResultsPage.LiveTallyDriftsAsWritten | VoteController.CastVoteChecked |
| server/controllers/authController.js:276-280 | the passcode lookup puts the request's `otp` straight into the filter; when the field is absent Mongoose drops that condition, so any user with the address and a live passcode is found | a user registers and receives passcode 1234 by e-mail; within the minute, a request with the address and no `otp` field replies "Email verified" for that account | refuse a request without a passcode as "Invalid or expired OTP" | not executed; rests on Mongoose's documented removal of `undefined` filter values | AuthController.MissingOtpVerifies | AuthController.VerifyOtpRequest |
| server/controllers/authController.js:181 | the reset request looks the e-mail up verbatim, while registration stores and login looks up the trimmed, lower-cased address | user stored as "bob@x.io"; a reset request for "Bob@x.io" replies "User not found" though login with "Bob@x.io" succeeds | normalise the address as login and registration do | not executed | AuthController.ForgotPasswordMissesCaseVariant | AuthController.ForgotPassword |

=== FILE: admin_dashboard.dfy ===
/** The admin dashboard's own logic: the date checks run before an election is created,
    and the status toggle. A date field is `Some(t)` when `new Date` parses it and `None`
    when it yields an invalid date, against which every comparison is false. */
module AdminDashboard {
  import opened Common
  import opened Text
  import opened Replies
  import opened ElectionModel
  import opened Store
  import opened ElectionController

  /** The grace period for form-filling time: five minutes, in milliseconds. */
  const StartGrace := 5 * 60000

  datatype FormCheck = StartInPast | EndNotAfterStart | Submit

  /** `start < now - grace` on JS dates: false when `start` is invalid. */
  predicate StartsTooEarly(start: Option<Time>, now: Time) {
    start.Some? && start.value < now - StartGrace
  }

  /** `end <= start` on JS dates: false when either is invalid. */
  predicate EndsTooSoon(start: Option<Time>, end: Option<Time>) {
    start.Some? && end.Some? && end.value <= start.value
  }

  /** `handleSubmit`'s checks, in order: the start-date alert, then the end-date alert,
      otherwise the form is posted. */
  function CheckCreationForm(start: Option<Time>, end: Option<Time>, now: Time): (r: FormCheck)
    ensures r == StartInPast <==> StartsTooEarly(start, now)
    ensures r == EndNotAfterStart <==> !StartsTooEarly(start, now) && EndsTooSoon(start, end)
  {
    if StartsTooEarly(start, now) then StartInPast
    else if EndsTooSoon(start, end) then EndNotAfterStart
    else Submit
  }

  /** For dates that parse, the form is posted exactly when the start lies no more than
      five minutes in the past and the end is strictly after the start. */
  lemma SubmitIffOrdered(start: Time, end: Time, now: Time)
    ensures CheckCreationForm(Some(start), Some(end), now) == Submit
            <==> start >= now - 300000 && end > start
  {
  }

  /** An unparseable date slips past both checks. */
  lemma InvalidDatesSubmit(end: Option<Time>, now: Time)
    ensures CheckCreationForm(None, end, now) == Submit
  {
  }

  /** Together with the server, which needs both dates: every election created through
      the form has its end after its start and a start no more than five minutes old. */
  lemma FormThenCreateOrdered(s: Store, id: Id, title: string, description: string,
                              start: Option<Time>, end: Option<Time>, now: Time)
    requires CheckCreationForm(start, end, now) == Submit
    requires CreateElection(s, id, title, description, start, end).1.Success?
    ensures var e := CreateElection(s, id, title, description, start, end).1.value;
            e.endDate > e.startDate && e.startDate >= now - StartGrace
  {
  }

  /** The server alone does not enforce that order: it creates an election that ends
      before it starts. */
  lemma ServerAcceptsReversedDates(s: Store, id: Id)
    requires id !in s.elections
    ensures var r := CreateElection(s, id, "T", "", Some(10), Some(5));
            r.1.Success? && r.1.value.endDate < r.1.value.startDate
  {
  }

  /** `toggleStatus`: the status string sent is "inactive" for an active election and
      "active" for any other. */
  function ToggleTarget(current: Status): (r: string)
    ensures ParseStatus(r).Some?
    ensures current == Active <==> ParseStatus(r) == Some(Inactive)
    ensures current != Active <==> ParseStatus(r) == Some(Active)
  {
    StatusName(if current == Active then Inactive else Active)
  }

  /** The request the toggle sends: a patch carrying only the new status. */
  function TogglePatch(current: Status): (p: ElectionPatch)
    ensures p.status == ToggleTarget(current)
    ensures p.(status := "") == EmptyPatch
  {
    EmptyPatch.(status := ToggleTarget(current))
  }

  /** Toggling an existing election through `updateElection` always succeeds and changes
      nothing but its status, which flips between active and inactive; a completed
      election becomes active. */
  lemma ToggleViaUpdate(s: Store, id: Id)
    requires id in s.elections
    ensures var e := s.elections[id];
            var r := UpdateElection(s, id, TogglePatch(e.status));
            && r.1.Success?
            && r.1.value == e.(status := if e.status == Active then Inactive else Active)
            && r.0.elections.Keys == s.elections.Keys
            && r.0.users == s.users && r.0.candidates == s.candidates && r.0.ballots == s.ballots
  {
    var e := s.elections[id];
    StatusRoundTrip(if e.status == Active then Inactive else Active);
  }

  /** Toggling twice restores an active or inactive election; a completed one comes back
      inactive, so the toggle cannot return an election to completed. */
  lemma ToggleTwice(s: Store, id: Id)
    requires id in s.elections
    ensures var e := s.elections[id];
            var s1 := UpdateElection(s, id, TogglePatch(e.status)).0;
            var s2 := UpdateElection(s1, id, TogglePatch(s1.elections[id].status)).0;
            s2.elections[id] == (if e.status == Completed then e.(status := Inactive) else e)
  {
    ToggleViaUpdate(s, id);
    var s1 := UpdateElection(s, id, TogglePatch(s.elections[id].status)).0;
    ToggleViaUpdate(s1, id);
  }
}

=== FILE: auth_controller.dfy ===
/** The account lifecycle: registration and re-registration while unverified, passcode
    verification and resend, login gating, password reset, and account deletion.
    Hashing, token signing and randomness are parameters or ideal datatypes. */
module AuthController {
  import opened Common
  import opened Replies
  import opened Text
  import opened UserModel
  import opened Otp
  import opened Least
  import opened Store

  // ----- queries ---------------------------------------------------------------------

  /** `User.findOne({ email: e })`. */
  function FindByEmail(users: map<Id, User>, e: string): (r: Option<Id>)
    ensures r.None? <==> forall id :: id in users ==> users[id].email != e
    ensures r.Some? ==> r.value in users && users[r.value].email == e
    ensures r.Some? ==> forall id :: id in users && users[id].email == e ==> r.value <= id
  {
    var ids := set id | id in users && users[id].email == e;
    assert forall id | id in users :: users[id].email == e ==> id in ids;
    if ids == {} then None else Some(LeastOf(ids))
  }

  /** Whether `u` holds passcode `otp` and it has not yet expired at `now` (`otpExpire > now`). */
  predicate OtpMatches(u: User, otp: string, now: Time) {
    u.otp == Some(otp) && u.otpExpire.Some? && now < u.otpExpire.value
  }

  /** `User.findOne({ email: e, otp, otpExpire: { $gt: now } })`. */
  function FindByOtp(users: map<Id, User>, e: string, otp: string, now: Time): (r: Option<Id>)
    ensures r.None? <==> forall id :: id in users ==> !(users[id].email == e && OtpMatches(users[id], otp, now))
    ensures r.Some? ==> r.value in users && users[r.value].email == e && OtpMatches(users[r.value], otp, now)
  {
    var ids := set id | id in users && users[id].email == e && OtpMatches(users[id], otp, now);
    assert forall id | id in users :: users[id].email == e && OtpMatches(users[id], otp, now) ==> id in ids;
    if ids == {} then None else Some(LeastOf(ids))
  }

  /** Whether `u` holds the reset-token digest `d` and it has not yet expired at `now`. */
  predicate ResetTokenMatches(u: User, d: Digest, now: Time) {
    u.resetPasswordToken == Some(d) && u.resetPasswordExpire.Some? && now < u.resetPasswordExpire.value
  }

  /** `User.findOne({ resetPasswordToken: d, resetPasswordExpire: { $gt: now } })`. */
  function FindByResetToken(users: map<Id, User>, d: Digest, now: Time): (r: Option<Id>)
    ensures r.None? <==> forall id :: id in users ==> !ResetTokenMatches(users[id], d, now)
    ensures r.Some? ==> r.value in users && ResetTokenMatches(users[r.value], d, now)
  {
    var ids := set id | id in users && ResetTokenMatches(users[id], d, now);
    assert forall id | id in users :: ResetTokenMatches(users[id], d, now) ==> id in ids;
    if ids == {} then None else Some(LeastOf(ids))
  }

  /** The unique index on `email`. */
  predicate UniqueEmails(users: map<Id, User>) {
    forall a, b :: a in users && b in users && users[a].email == users[b].email ==> a == b
  }

  /** What registration guarantees of every stored user: the schema validators hold, the
      e-mail is stored normalised, and no two users share an e-mail. */
  predicate UsersWellFormed(users: map<Id, User>) {
    UniqueEmails(users) && UsersValid(users)
  }

  /** Under the unique index, the lookup by e-mail finds exactly the owner of the address. */
  lemma FindByEmailUnique(users: map<Id, User>, id: Id)
    requires UniqueEmails(users) && id in users
    ensures FindByEmail(users, users[id].email) == Some(id)
  {
  }

  /** Replacing one user by a record with the same address keeps addresses unique. */
  lemma SameEmailKeepsUnique(users: map<Id, User>, id: Id, u: User)
    requires UniqueEmails(users) && id in users && u.email == users[id].email
    ensures UniqueEmails(users[id := u])
  {
  }

  /** Adding a user under an address nobody holds keeps addresses unique. */
  lemma FreshEmailKeepsUnique(users: map<Id, User>, id: Id, u: User)
    requires UniqueEmails(users) && id !in users
    requires forall x :: x in users ==> users[x].email != u.email
    ensures UniqueEmails(users[id := u])
  {
  }

  /** Every stored user is valid and stored under its normalised address. */
  predicate UsersValid(users: map<Id, User>) {
    forall id :: id in users ==> Valid(users[id]) && NormalizeEmail(users[id].email) == users[id].email
  }

  /** Replacing one user by a valid record under the same address keeps the collection
      well formed. */
  lemma ReplaceKeepsWellFormed(users: map<Id, User>, id: Id, u: User)
    requires UsersWellFormed(users) && id in users
    requires u.email == users[id].email && Valid(u)
    ensures UsersWellFormed(users[id := u])
  {
    SameEmailKeepsUnique(users, id, u);
    ReplaceKeepsValid(users, id, u);
  }

  lemma ReplaceKeepsValid(users: map<Id, User>, id: Id, u: User)
    requires UsersValid(users) && id in users
    requires u.email == users[id].email && Valid(u)
    ensures UsersValid(users[id := u])
  {
    var r := users[id := u];
    forall x | x in r
      ensures Valid(r[x]) && NormalizeEmail(r[x].email) == r[x].email
    {
      if x != id {
        assert r[x] == users[x];
      }
    }
  }

  // ----- registration -------------------------------------------------------------------

  /** The reply to a successful registration, and the passcode e-mailed to the address. */
  datatype Registration = Registration(created: bool, userId: Id, email: string, otp: string)

  /** Re-registration of an existing unverified user: name and password are overwritten
      (the save hook re-hashes the password) and a new passcode and expiry are set. */
  function Reissue(users: map<Id, User>, uid: Id, name: string, password: string,
                   otp: string, expire: Time, salt: nat): (r: map<Id, User>)
    requires uid in users
    ensures r.Keys == users.Keys
    ensures forall other :: other in users && other != uid ==> r[other] == users[other]
    ensures r[uid].name == name && MatchPassword(r[uid], password)
    ensures r[uid].email == users[uid].email && r[uid].role == users[uid].role
    ensures r[uid].isVerified == users[uid].isVerified && r[uid].hasVoted == users[uid].hasVoted
    ensures r[uid].otp == Some(otp) && r[uid].otpExpire == Some(expire)
    ensures r[uid].resetPasswordToken == users[uid].resetPasswordToken
    ensures r[uid].resetPasswordExpire == users[uid].resetPasswordExpire
  {
    var u := users[uid];
    users[uid := u.(name := name, password := HashOnSave(u.password, Some(password), salt),
                    otp := Some(otp), otpExpire := Some(expire))]
  }

  /** First registration of an address: `role || 'voter'` then the role enum validator,
      then `User.create` with the schema validators. `id` is the ObjectId Mongo gives the
      document; a clash, like any validation failure, surfaces as a server error. */
  function CreateAccount(users: map<Id, User>, id: Id, name: string, e: string, password: string,
                         role: string, otp: string, expire: Time, salt: nat): (r: Result<map<Id, User>>)
    ensures r.Success? <==> id !in users && (!Truthy(role) || ParseRole(role).Some?)
                            && IsValidName(name) && e != "" && password != ""
    ensures r.Failure? ==> r.error == ServerError
    ensures r.Success? ==>
              && r.value.Keys == users.Keys + {id}
              && (forall other :: other in users ==> r.value[other] == users[other])
              && r.value[id].name == name && r.value[id].email == e && MatchPassword(r.value[id], password)
              && r.value[id].role == (if role == "admin" then Admin else Voter)
              && !r.value[id].isVerified && !r.value[id].hasVoted
              && r.value[id].otp == Some(otp) && r.value[id].otpExpire == Some(expire)
              && Valid(r.value[id])
  {
    var given := if Truthy(role) then ParseRole(role) else Some(Voter);
    if given.None? || id in users then Failure(ServerError)
    else
      match NewUser(name, e, password, given.value, otp, expire, salt)
      case None => Failure(ServerError)
      case Some(u) => Success(users[id := u])
  }

  /** `registerUser`. `id` is the ObjectId Mongo would give a new user, `draw` the random
      choice of passcode, `salt` bcrypt's random salt. The checks run in order: all three
      fields present, name pattern, then the lookup of the normalised address. */
  function Register(s: Store, name: string, email: string, password: string, role: string,
                    id: Id, now: Time, draw: nat, salt: nat): (r: (Store, Result<Registration>))
    ensures r.1.Failure? ==> r.0 == s
    ensures !Truthy(name) || !Truthy(email) || !Truthy(password) ==> r.1 == Failure(MissingFields)
    ensures Truthy(name) && Truthy(email) && Truthy(password) && !IsValidName(name) ==> r.1 == Failure(InvalidName)
    ensures r.0.elections == s.elections && r.0.candidates == s.candidates && r.0.ballots == s.ballots
    ensures r.1.Success? ==> r.1.value.otp == OtpCode(draw)
    ensures IsValidName(name) && Truthy(email) && Truthy(password) ==>
              match FindByEmail(s.users, NormalizeEmail(email))
              // an existing verified address is refused
              case Some(uid) =>
                if s.users[uid].isVerified then r.1 == Failure(UserExists)
                // an existing unverified address is overwritten in place
                else r.1 == Success(Registration(false, uid, s.users[uid].email, OtpCode(draw)))
                     && r.0.users == Reissue(s.users, uid, name, password, OtpCode(draw), now + OtpLifetime, salt)
              // otherwise a new unverified user is created
              case None =>
                var c := CreateAccount(s.users, id, name, NormalizeEmail(email), password, role,
                                       OtpCode(draw), now + OtpLifetime, salt);
                (c.Failure? ==> r.1 == Failure(c.error))
                && (c.Success? ==> r.1 == Success(Registration(true, id, NormalizeEmail(email), OtpCode(draw)))
                                   && r.0.users == c.value)
  {
    if !Truthy(name) || !Truthy(email) || !Truthy(password) then (s, Failure(MissingFields))
    else if !IsValidName(name) then (s, Failure(InvalidName))
    else
      var e := NormalizeEmail(email);
      var otp := OtpCode(draw);
      var expire := now + OtpLifetime;
      match FindByEmail(s.users, e)
      case Some(uid) =>
        if s.users[uid].isVerified then (s, Failure(UserExists))
        else
          (s.(users := Reissue(s.users, uid, name, password, otp, expire, salt)),
           Success(Registration(false, uid, s.users[uid].email, otp)))
      case None =>
        match CreateAccount(s.users, id, name, e, password, role, otp, expire, salt)
        case Failure(err) => (s, Failure(err))
        case Success(users) => (s.(users := users), Success(Registration(true, id, e, otp)))
  }

  lemma ReissuePreservesWellFormed(users: map<Id, User>, uid: Id, name: string, password: string,
                                   otp: string, expire: Time, salt: nat)
    requires UsersWellFormed(users) && uid in users
    requires IsValidName(name) && password != ""
    ensures UsersWellFormed(Reissue(users, uid, name, password, otp, expire, salt))
  {
    var r := Reissue(users, uid, name, password, otp, expire, salt);
    assert r == users[uid := r[uid]];
    SameEmailKeepsUnique(users, uid, r[uid]);
    forall id | id in r
      ensures Valid(r[id]) && NormalizeEmail(r[id].email) == r[id].email
    {
      if id != uid {
        assert r[id] == users[id];
      }
    }
  }

  lemma CreateAccountPreservesWellFormed(users: map<Id, User>, id: Id, name: string, e: string, password: string,
                                         role: string, otp: string, expire: Time, salt: nat)
    requires UsersWellFormed(users)
    requires FindByEmail(users, e).None? && NormalizeEmail(e) == e
    requires CreateAccount(users, id, name, e, password, role, otp, expire, salt).Success?
    ensures UsersWellFormed(CreateAccount(users, id, name, e, password, role, otp, expire, salt).value)
  {
    var r := CreateAccount(users, id, name, e, password, role, otp, expire, salt).value;
    assert r == users[id := r[id]];
    FreshEmailKeepsUnique(users, id, r[id]);
    forall x | x in r
      ensures Valid(r[x]) && NormalizeEmail(r[x].email) == r[x].email
    {
      if x != id {
        assert r[x] == users[x];
      }
    }
  }

  /** Registration keeps every stored user valid, normalised and uniquely addressed. */
  lemma RegisterPreservesWellFormed(s: Store, name: string, email: string, password: string, role: string,
                                    id: Id, now: Time, draw: nat, salt: nat)
    requires UsersWellFormed(s.users)
    ensures UsersWellFormed(Register(s, name, email, password, role, id, now, draw, salt).0.users)
  {
    if IsValidName(name) && Truthy(email) && Truthy(password) {
      var e := NormalizeEmail(email);
      match FindByEmail(s.users, e)
      case Some(uid) =>
        if !s.users[uid].isVerified {
          ReissuePreservesWellFormed(s.users, uid, name, password, OtpCode(draw), now + OtpLifetime, salt);
        }
      case None =>
        if CreateAccount(s.users, id, name, e, password, role, OtpCode(draw), now + OtpLifetime, salt).Success? {
          NormalizeEmailIdempotent(email);
          CreateAccountPreservesWellFormed(s.users, id, name, e, password, role, OtpCode(draw), now + OtpLifetime, salt);
        }
    }
  }

  // ----- login ---------------------------------------------------------------------------

  /** The body of a successful login; the signed token itself is not modelled. */
  datatype LoginReply = LoginReply(userId: Id, name: string, email: string, role: Role)

  /** `loginUser`: unknown address or wrong password is 401; a right password for an
      unverified voter is 403 asking for verification; admins may log in unverified. */
  function Login(s: Store, email: string, password: string): (r: Result<LoginReply>)
    ensures FindByEmail(s.users, NormalizeEmail(email)).None? ==> r == Failure(InvalidCredentials)
    ensures r.Success? <==>
              var f := FindByEmail(s.users, NormalizeEmail(email));
              f.Some? && MatchPassword(s.users[f.value], password)
              && (s.users[f.value].isVerified || s.users[f.value].role == Admin)
    ensures r.Success? ==> r.value.userId == FindByEmail(s.users, NormalizeEmail(email)).value
    ensures r.Failure? ==> r.error == InvalidCredentials || r.error.NeedsVerification?
    ensures var f := FindByEmail(s.users, NormalizeEmail(email));
            (r.Failure? && r.error.NeedsVerification?) <==>
              f.Some? && MatchPassword(s.users[f.value], password)
              && !s.users[f.value].isVerified && s.users[f.value].role == Voter
    ensures var f := FindByEmail(s.users, NormalizeEmail(email));
            f.Some? && MatchPassword(s.users[f.value], password)
            && !s.users[f.value].isVerified && s.users[f.value].role == Voter
            ==> r == Failure(NeedsVerification(s.users[f.value].email))
  {
    match FindByEmail(s.users, NormalizeEmail(email))
    case None => Failure(InvalidCredentials)
    case Some(uid) =>
      var u := s.users[uid];
      if !MatchPassword(u, password) then Failure(InvalidCredentials)
      else if !u.isVerified && u.role != Admin then Failure(NeedsVerification(u.email))
      else Success(LoginReply(uid, u.name, u.email, u.role))
  }

  // ----- passcode verification and resend -------------------------------------------------

  /** `verifyOTP`: succeeds exactly when a user has the normalised address, the same
      passcode and an expiry strictly later than `now`; the user becomes verified and the
      passcode is cleared. */
  function VerifyOtp(s: Store, email: string, otp: string, now: Time): (r: (Store, Result<Id>))
    ensures r.1.Success? <==> exists id :: id in s.users && s.users[id].email == NormalizeEmail(email)
                                           && OtpMatches(s.users[id], otp, now)
    ensures r.1.Failure? ==> r == (s, Failure(InvalidOtp))
    ensures r.1.Success? ==>
              var id := r.1.value;
              && id in s.users && s.users[id].email == NormalizeEmail(email) && OtpMatches(s.users[id], otp, now)
              && r.0 == s.(users := s.users[id := s.users[id].(isVerified := true, otp := None, otpExpire := None)])
  {
    match FindByOtp(s.users, NormalizeEmail(email), otp, now)
    case None => (s, Failure(InvalidOtp))
    case Some(id) =>
      var u := s.users[id].(isVerified := true, otp := None, otpExpire := None);
      (s.(users := s.users[id := u]), Success(id))
  }

  /** A passcode is single-use: replaying it after a successful verification fails. */
  lemma OtpNotReplayable(s: Store, email: string, otp: string, now: Time, later: Time)
    requires UniqueEmails(s.users)
    requires VerifyOtp(s, email, otp, now).1.Success?
    ensures var s1 := VerifyOtp(s, email, otp, now).0;
            VerifyOtp(s1, email, otp, later) == (s1, Failure(InvalidOtp))
  {
  }

  /** `resendOTP`: 404 for an unknown address, 400 if already verified; otherwise a fresh
      passcode and expiry replace the old ones and the user stays unverified. */
  function ResendOtp(s: Store, email: string, now: Time, draw: nat): (r: (Store, Result<string>))
    ensures FindByEmail(s.users, NormalizeEmail(email)).None? ==> r == (s, Failure(UserNotFound))
    ensures var f := FindByEmail(s.users, NormalizeEmail(email));
            f.Some? && s.users[f.value].isVerified ==> r == (s, Failure(AlreadyVerified))
    ensures r.1.Failure? ==> r.0 == s
    ensures r.1.Success? <==> var f := FindByEmail(s.users, NormalizeEmail(email));
                              f.Some? && !s.users[f.value].isVerified
    ensures r.1.Success? ==>
              var id := FindByEmail(s.users, NormalizeEmail(email)).value;
              && r.1.value == OtpCode(draw)
              && r.0 == s.(users := s.users[id := s.users[id].(otp := Some(OtpCode(draw)),
                                                              otpExpire := Some(now + OtpLifetime))])
  {
    match FindByEmail(s.users, NormalizeEmail(email))
    case None => (s, Failure(UserNotFound))
    case Some(id) =>
      var u := s.users[id];
      if u.isVerified then (s, Failure(AlreadyVerified))
      else
        var otp := OtpCode(draw);
        (s.(users := s.users[id := u.(otp := Some(otp), otpExpire := Some(now + OtpLifetime))]), Success(otp))
  }

  /** Verification keeps every stored user valid, normalised and uniquely addressed. */
  lemma VerifyOtpPreservesWellFormed(s: Store, email: string, otp: string, now: Time)
    requires UsersWellFormed(s.users)
    ensures UsersWellFormed(VerifyOtp(s, email, otp, now).0.users)
  {
    var r := VerifyOtp(s, email, otp, now);
    if r.1.Success? {
      var id := r.1.value;
      ReplaceKeepsWellFormed(s.users, id, s.users[id].(isVerified := true, otp := None, otpExpire := None));
    }
  }

  /** A resend keeps every stored user valid, normalised and uniquely addressed. */
  lemma ResendOtpPreservesWellFormed(s: Store, email: string, now: Time, draw: nat)
    requires UsersWellFormed(s.users)
    ensures UsersWellFormed(ResendOtp(s, email, now, draw).0.users)
  {
    var r := ResendOtp(s, email, now, draw);
    if r.1.Success? {
      var id := FindByEmail(s.users, NormalizeEmail(email)).value;
      ReplaceKeepsWellFormed(s.users, id, s.users[id].(otp := Some(OtpCode(draw)), otpExpire := Some(now + OtpLifetime)));
    }
  }

  /** A resend replaces the passcode: until the new one-minute expiry the new code verifies
      the user, and any other code, including the one mailed before, is refused. */
  lemma ResendReplacesCode(s: Store, email: string, now: Time, draw: nat, earlier: string, t: Time)
    requires UniqueEmails(s.users)
    requires ResendOtp(s, email, now, draw).1.Success?
    requires earlier != OtpCode(draw)
    ensures var s1 := ResendOtp(s, email, now, draw).0;
            && VerifyOtp(s1, email, earlier, t) == (s1, Failure(InvalidOtp))
            && (t < now + OtpLifetime ==>
                  VerifyOtp(s1, email, OtpCode(draw), t).1 == Success(FindByEmail(s.users, NormalizeEmail(email)).value))
  {
    var id := FindByEmail(s.users, NormalizeEmail(email)).value;
    var s1 := ResendOtp(s, email, now, draw).0;
    SameEmailKeepsUnique(s.users, id, s1.users[id]);
    if t < now + OtpLifetime {
      VerifyOwner(s1, email, OtpCode(draw), id, t);
    }
  }

  // ----- request bodies with absent fields ----------------------------------------------

  /** `loginUser` on the raw request body, where `None` is an absent field. Without
      `email`, `email.trim()` throws and the catch answers 500; without `password`, a found
      user's `bcrypt.compare(undefined, hash)` rejects the same way, while an unknown address
      is still 401 because the comparison is never reached. */
  function LoginRequest(s: Store, email: Option<string>, password: Option<string>): (r: Result<LoginReply>)
    ensures email.None? ==> r == Failure(ServerError)
    ensures email.Some? && password.Some? ==> r == Login(s, email.value, password.value)
    ensures email.Some? && password.None? ==>
              r == (if FindByEmail(s.users, NormalizeEmail(email.value)).Some? then Failure(ServerError)
                    else Failure(InvalidCredentials))
    ensures r.Success? ==> email.Some? && password.Some?
  {
    match email
    case None => Failure(ServerError)
    case Some(e) =>
      match password
      case Some(p) => Login(s, e, p)
      case None =>
        if FindByEmail(s.users, NormalizeEmail(e)).Some? then Failure(ServerError) else Failure(InvalidCredentials)
  }

  /** `resendOTP` on the raw request body: without `email` the handler throws and answers 500. */
  function ResendOtpRequest(s: Store, email: Option<string>, now: Time, draw: nat): (r: (Store, Result<string>))
    ensures email.None? ==> r == (s, Failure(ServerError))
    ensures email.Some? ==> r == ResendOtp(s, email.value, now, draw)
  {
    match email
    case None => (s, Failure(ServerError))
    case Some(e) => ResendOtp(s, e, now, draw)
  }

  /** `User.findOne({ email: e, otpExpire: { $gt: now } })`: the passcode lookup once
      Mongoose has dropped an `otp: undefined` condition from the filter. */
  function FindByLiveOtp(users: map<Id, User>, e: string, now: Time): (r: Option<Id>)
    ensures r.None? <==> forall id :: id in users ==>
                           !(users[id].email == e && users[id].otpExpire.Some? && now < users[id].otpExpire.value)
    ensures r.Some? ==> r.value in users && users[r.value].email == e
                        && users[r.value].otpExpire.Some? && now < users[r.value].otpExpire.value
  {
    var ids := set id | id in users && users[id].email == e && users[id].otpExpire.Some? && now < users[id].otpExpire.value;
    assert forall id | id in users :: users[id].email == e && users[id].otpExpire.Some? && now < users[id].otpExpire.value ==> id in ids;
    if ids == {} then None else Some(LeastOf(ids))
  }

  /** `verifyOTP` as written, on the raw request body. Without `email` the handler throws
      (500). Without `otp` the filter keeps only the address and the expiry, so any user
      with that address and a live passcode is verified, whatever code they hold. */
  function VerifyOtpAsWritten(s: Store, email: Option<string>, otp: Option<string>, now: Time): (r: (Store, Result<Id>))
    ensures email.None? ==> r == (s, Failure(ServerError))
    ensures email.Some? && otp.Some? ==> r == VerifyOtp(s, email.value, otp.value, now)
    ensures email.Some? && otp.None? ==>
              (r.1.Success? <==> FindByLiveOtp(s.users, NormalizeEmail(email.value), now).Some?)
    ensures r.1.Failure? ==> r.0 == s
    ensures r.1.Success? ==> r.1.value in s.users && r.1.value in r.0.users && r.0.users[r.1.value].isVerified
  {
    match email
    case None => (s, Failure(ServerError))
    case Some(e) =>
      match otp
      case Some(code) => VerifyOtp(s, e, code, now)
      case None =>
        match FindByLiveOtp(s.users, NormalizeEmail(e), now)
        case None => (s, Failure(InvalidOtp))
        case Some(id) =>
          var u := s.users[id].(isVerified := true, otp := None, otpExpire := None);
          (s.(users := s.users[id := u]), Success(id))
  }

  /** Leaving the passcode out verifies the account: a user who registered (and so holds a
      live passcode they have not disclosed) is verified by a request that names only the
      address, at any moment before the passcode expires. */
  lemma MissingOtpVerifies(s: Store, id: Id, now: Time)
    requires UniqueEmails(s.users) && id in s.users && !s.users[id].isVerified
    requires s.users[id].otpExpire.Some? && now < s.users[id].otpExpire.value
    requires NormalizeEmail(s.users[id].email) == s.users[id].email
    ensures var r := VerifyOtpAsWritten(s, Some(s.users[id].email), None, now);
            r.1 == Success(id) && r.0.users[id].isVerified
  {
    var e := s.users[id].email;
    assert (set x | x in s.users && s.users[x].email == e && s.users[x].otpExpire.Some? && now < s.users[x].otpExpire.value) == {id};
  }

  /** `verifyOTP` with the passcode required: a request without `otp` is refused like a
      wrong code. Otherwise it behaves as `VerifyOtp`. */
  function VerifyOtpRequest(s: Store, email: Option<string>, otp: Option<string>, now: Time): (r: (Store, Result<Id>))
    ensures email.None? ==> r == (s, Failure(ServerError))
    ensures email.Some? && otp.None? ==> r == (s, Failure(InvalidOtp))
    ensures email.Some? && otp.Some? ==> r == VerifyOtp(s, email.value, otp.value, now)
    ensures r.1.Success? ==>
              && email.Some? && otp.Some? && r.1.value in s.users
              && s.users[r.1.value].email == NormalizeEmail(email.value)
              && OtpMatches(s.users[r.1.value], otp.value, now)
  {
    match email
    case None => (s, Failure(ServerError))
    case Some(e) =>
      match otp
      case None => (s, Failure(InvalidOtp))
      case Some(code) => VerifyOtp(s, e, code, now)
  }

  /** With the passcode required, a request without it never verifies anyone and changes
      nothing, and with it the request verifies exactly the owner of a matching live code. */
  lemma VerifyNeedsCode(s: Store, email: string, now: Time, id: Id, code: string)
    requires UniqueEmails(s.users) && id in s.users && s.users[id].email == NormalizeEmail(email)
    ensures VerifyOtpRequest(s, Some(email), None, now) == (s, Failure(InvalidOtp))
    ensures VerifyOtpRequest(s, Some(email), Some(code), now).1 == Success(id) <==> OtpMatches(s.users[id], code, now)
  {
    if OtpMatches(s.users[id], code, now) {
      VerifyOwner(s, email, code, id, now);
    }
  }

  /** What a successful first registration without a role leaves behind: a well-formed
      user collection holding an unverified voter under the normalised address, with the
      given password and the drawn passcode. */
  lemma RegisteredVoter(s: Store, name: string, email: string, password: string,
                        id: Id, now: Time, draw: nat, salt: nat)
    requires UsersWellFormed(s.users)
    requires Register(s, name, email, password, "", id, now, draw, salt).1.Success?
    requires Register(s, name, email, password, "", id, now, draw, salt).1.value.created
    ensures var u := Register(s, name, email, password, "", id, now, draw, salt).0.users;
            && UniqueEmails(u) && id in u && u[id].email == NormalizeEmail(email)
            && MatchPassword(u[id], password) && !u[id].isVerified && u[id].role == Voter
            && u[id].otp == Some(OtpCode(draw)) && u[id].otpExpire == Some(now + OtpLifetime)
  {
    RegisterPreservesWellFormed(s, name, email, password, "", id, now, draw, salt);
  }

  /** Verifying the owner of an address with their live passcode picks exactly that user. */
  lemma VerifyOwner(s: Store, email: string, otp: string, id: Id, now: Time)
    requires UniqueEmails(s.users) && id in s.users && s.users[id].email == NormalizeEmail(email)
    requires OtpMatches(s.users[id], otp, now)
    ensures var v := VerifyOtp(s, email, otp, now);
            && v.1 == Success(id)
            && v.0.users == s.users[id := s.users[id].(isVerified := true, otp := None, otpExpire := None)]
            && UniqueEmails(v.0.users)
  {
    SameEmailKeepsUnique(s.users, id, s.users[id].(isVerified := true, otp := None, otpExpire := None));
  }

  /** The whole sign-up path for a new voter: right after registering, login asks for
      verification; the e-mailed passcode verifies the account at any moment before the
      one-minute expiry; then login succeeds, and the passcode cannot be used again. */
  lemma SignUpLifecycle(s: Store, name: string, email: string, password: string,
                        id: Id, now: Time, draw: nat, salt: nat, t: Time)
    requires UsersWellFormed(s.users)
    requires Register(s, name, email, password, "", id, now, draw, salt).1.Success?
    requires Register(s, name, email, password, "", id, now, draw, salt).1.value.created
    requires t < now + OtpLifetime
    ensures var s1 := Register(s, name, email, password, "", id, now, draw, salt).0;
            var v := VerifyOtp(s1, email, OtpCode(draw), t);
            && Login(s1, email, password) == Failure(NeedsVerification(NormalizeEmail(email)))
            && v.1 == Success(id)
            && Login(v.0, email, password).Success?
            && Login(v.0, email, password).value.userId == id
            && VerifyOtp(v.0, email, OtpCode(draw), t).1.Failure?
  {
    RegisteredVoter(s, name, email, password, id, now, draw, salt);
    var s1 := Register(s, name, email, password, "", id, now, draw, salt).0;
    FindByEmailUnique(s1.users, id);
    VerifyOwner(s1, email, OtpCode(draw), id, t);
    var v := VerifyOtp(s1, email, OtpCode(draw), t);
    FindByEmailUnique(v.0.users, id);
    OtpNotReplayable(s1, email, OtpCode(draw), t, t);
  }

  /** A passcode presented at or after its expiry never verifies. */
  lemma ExpiredOtpRejected(s: Store, name: string, email: string, password: string,
                           id: Id, now: Time, draw: nat, salt: nat, t: Time)
    requires UsersWellFormed(s.users)
    requires Register(s, name, email, password, "", id, now, draw, salt).1.Success?
    requires Register(s, name, email, password, "", id, now, draw, salt).1.value.created
    requires t >= now + OtpLifetime
    ensures var s1 := Register(s, name, email, password, "", id, now, draw, salt).0;
            VerifyOtp(s1, email, OtpCode(draw), t).1.Failure?
  {
    RegisteredVoter(s, name, email, password, id, now, draw, salt);
  }

  // ----- deletion ------------------------------------------------------------------------

  /** `deleteUser` (admin): 404 for a missing id, 400 for one's own account; otherwise
      exactly that user is removed. */
  function DeleteUser(s: Store, target: Id, caller: Id): (r: (Store, Result<()>))
    ensures target !in s.users ==> r == (s, Failure(UserNotFound))
    ensures target in s.users && target == caller ==> r == (s, Failure(CannotDeleteSelf))
    ensures target in s.users && target != caller ==>
              r == (s.(users := s.users - {target}), Success(()))
  {
    if target !in s.users then (s, Failure(UserNotFound))
    else if target == caller then (s, Failure(CannotDeleteSelf))
    else (s.(users := s.users - {target}), Success(()))
  }

  /** `deleteMe`: the caller confirms with e-mail and password before their own account
      is removed. */
  function DeleteMe(s: Store, caller: Id, email: string, password: string): (r: (Store, Result<()>))
    ensures r.1.Failure? ==> r.0 == s
    ensures !Truthy(email) || !Truthy(password) ==> r.1 == Failure(MissingFields)
    ensures r.1.Success? <==>
              Truthy(email) && Truthy(password) && caller in s.users
              && s.users[caller].email == NormalizeEmail(email) && MatchPassword(s.users[caller], password)
    ensures r.1.Success? ==> r.0 == s.(users := s.users - {caller})
  {
    if !Truthy(email) || !Truthy(password) then (s, Failure(MissingFields))
    else if caller !in s.users then (s, Failure(UserNotFound))
    else if s.users[caller].email != NormalizeEmail(email) then (s, Failure(IncorrectEmail))
    else if !MatchPassword(s.users[caller], password) then (s, Failure(IncorrectPassword))
    else (s.(users := s.users - {caller}), Success(()))
  }

  lemma DeletePreservesWellFormed(s: Store, target: Id, caller: Id, email: string, password: string)
    requires UsersWellFormed(s.users)
    ensures UsersWellFormed(DeleteUser(s, target, caller).0.users)
    ensures UsersWellFormed(DeleteMe(s, caller, email, password).0.users)
  {
  }

  // ----- password reset ------------------------------------------------------------------

  /** `User.findOne({})`: the filter left once Mongoose has dropped an `email: undefined`
      condition. It yields some user when there is one; the model takes the least id. */
  function FindAny(users: map<Id, User>): (r: Option<Id>)
    ensures r.None? <==> users == map[]
    ensures r.Some? ==> r.value in users
  {
    if users.Keys == {} then
      assert users == map[];
      None
    else Some(LeastOf(users.Keys))
  }

  /** `forgotPassword` as written, on the raw request body (`None` is an absent field): the
      address is looked up exactly as given, without the trimming and lower-casing every
      other account route applies, and a request without one matches whichever user
      `findOne({})` yields. `token` is the random hex string; the success value is that raw
      token, which leaves the server only inside the reset link the handler logs, while the
      HTTP reply itself says just "Email sent". */
  function ForgotPasswordAsWritten(s: Store, email: Option<string>, token: string, now: Time)
    : (r: (Store, Result<string>))
    ensures email.Some? ==> (r.1.Success? <==> exists id :: id in s.users && s.users[id].email == email.value)
    ensures email.None? ==> (r.1.Success? <==> s.users != map[])
    ensures r.1.Failure? ==> r == (s, Failure(UserNotFound))
    ensures r.1.Success? ==>
              var id := if email.Some? then FindByEmail(s.users, email.value).value else FindAny(s.users).value;
              && id in s.users && r.1.value == token
              && (email.Some? ==> s.users[id].email == email.value)
              && r.0 == s.(users := s.users[id := s.users[id].(resetPasswordToken := Some(Sha256(token)),
                                                             resetPasswordExpire := Some(now + ResetTokenLifetime))])
  {
    var found := if email.Some? then FindByEmail(s.users, email.value) else FindAny(s.users);
    match found
    case None => (s, Failure(UserNotFound))
    case Some(id) =>
      var (u, sent) := IssueResetToken(s.users[id], token, now);
      (s.(users := s.users[id := u]), Success(sent))
  }

  /** A user registered as "bob@x.io" who asks for a reset as "Bob@x.io" is told the user
      does not exist, although the same address logs in. */
  lemma ForgotPasswordMissesCaseVariant(u: User)
    requires u.email == "bob@x.io" && MatchPassword(u, "pw") && u.isVerified
    ensures var s := Store(map[7 := u], map[], map[], []);
            && ForgotPasswordAsWritten(s, Some("Bob@x.io"), "tok", 0).1 == Failure(UserNotFound)
            && Login(s, "Bob@x.io", "pw").Success?
  {
    var s := Store(map[7 := u], map[], map[], []);
    NormalizeCapitalised();
    assert FindByEmail(s.users, "Bob@x.io").None?;
    FindByEmailUnique(s.users, 7);
  }

  lemma NormalizeCapitalised()
    ensures NormalizeEmail("Bob@x.io") == "bob@x.io"
  {
    TrimUnpadded("Bob@x.io");
    assert Lower("Bob@x.io") == "bob@x.io";
  }

  /** `forgotPassword` with the address normalised like every other account route; a
      request without an address matches nobody. */
  function ForgotPassword(s: Store, email: Option<string>, token: string, now: Time): (r: (Store, Result<string>))
    ensures r.1.Failure? ==> r == (s, Failure(UserNotFound))
    ensures r.1.Success? <==> email.Some? && FindByEmail(s.users, NormalizeEmail(email.value)).Some?
    ensures r.1.Success? ==>
              var id := FindByEmail(s.users, NormalizeEmail(email.value)).value;
              && r.1.value == token
              && r.0.users.Keys == s.users.Keys
              && (forall other :: other in s.users && other != id ==> r.0.users[other] == s.users[other])
              && r.0.users[id] == s.users[id].(resetPasswordToken := Some(Sha256(token)),
                                               resetPasswordExpire := Some(now + ResetTokenLifetime))
              && r.0.elections == s.elections && r.0.candidates == s.candidates && r.0.ballots == s.ballots
  {
    if email.None? then (s, Failure(UserNotFound))
    else
      match FindByEmail(s.users, NormalizeEmail(email.value))
      case None => (s, Failure(UserNotFound))
      case Some(id) =>
        var (u, sent) := IssueResetToken(s.users[id], token, now);
        (s.(users := s.users[id := u]), Success(sent))
  }

  /** Issuing a reset token, as written or corrected, keeps every stored user valid,
      normalised and uniquely addressed. */
  lemma ForgotPasswordPreservesWellFormed(s: Store, email: Option<string>, token: string, now: Time)
    requires UsersWellFormed(s.users)
    ensures UsersWellFormed(ForgotPasswordAsWritten(s, email, token, now).0.users)
    ensures UsersWellFormed(ForgotPassword(s, email, token, now).0.users)
  {
    ForgotAsWrittenPreservesWellFormed(s, email, token, now);
    ForgotCorrectedPreservesWellFormed(s, email, token, now);
  }

  lemma ForgotCorrectedPreservesWellFormed(s: Store, email: Option<string>, token: string, now: Time)
    requires UsersWellFormed(s.users)
    ensures UsersWellFormed(ForgotPassword(s, email, token, now).0.users)
  {
    var found := if email.Some? then FindByEmail(s.users, NormalizeEmail(email.value)) else None;
    if found.Some? {
      ResetTokenKeepsWellFormed(s.users, found.value, token, now);
    }
  }

  lemma ResetTokenKeepsWellFormed(users: map<Id, User>, id: Id, token: string, now: Time)
    requires id in users && UsersWellFormed(users)
    ensures UsersWellFormed(users[id := IssueResetToken(users[id], token, now).0])
  {
    ReplaceKeepsWellFormed(users, id, IssueResetToken(users[id], token, now).0);
  }

  lemma ForgotAsWrittenPreservesWellFormed(s: Store, email: Option<string>, token: string, now: Time)
    requires UsersWellFormed(s.users)
    ensures UsersWellFormed(ForgotPasswordAsWritten(s, email, token, now).0.users)
  {
    var found := if email.Some? then FindByEmail(s.users, email.value) else FindAny(s.users);
    if found.Some? {
      ResetTokenKeepsWellFormed(s.users, found.value, token, now);
    }
  }

  /** `resetPassword`: the token's digest must be stored on some user and not expired;
      the new password is hashed on save and the token is cleared. An empty password fails
      the schema's `required` validator. */
  function ResetPassword(s: Store, token: string, password: string, now: Time, salt: nat)
    : (r: (Store, Result<Id>))
    ensures r.1.Failure? ==> r.0 == s
    ensures FindByResetToken(s.users, Sha256(token), now).None? ==> r.1 == Failure(InvalidToken)
    ensures r.1.Success? <==> FindByResetToken(s.users, Sha256(token), now).Some? && password != ""
    ensures r.1.Success? ==>
              var id := r.1.value;
              && id == FindByResetToken(s.users, Sha256(token), now).value
              && id in r.0.users
              && r.0 == s.(users := s.users[id := s.users[id].(password := r.0.users[id].password,
                                                             resetPasswordToken := None,
                                                             resetPasswordExpire := None)])
              && MatchPassword(r.0.users[id], password)
  {
    match FindByResetToken(s.users, Sha256(token), now)
    case None => (s, Failure(InvalidToken))
    case Some(id) =>
      if password == "" then (s, Failure(ServerError))
      else
        var u := s.users[id];
        var u' := u.(password := HashOnSave(u.password, Some(password), salt),
                     resetPasswordToken := None, resetPasswordExpire := None);
        (s.(users := s.users[id := u']), Success(id))
  }

  /** A reset keeps every stored user valid, normalised and uniquely addressed. */
  lemma ResetPasswordPreservesWellFormed(s: Store, token: string, password: string, now: Time, salt: nat)
    requires UsersWellFormed(s.users)
    ensures UsersWellFormed(ResetPassword(s, token, password, now, salt).0.users)
  {
    var r := ResetPassword(s, token, password, now, salt);
    if r.1.Success? {
      var id := r.1.value;
      ReplaceKeepsWellFormed(s.users, id, r.0.users[id]);
    }
  }

  /** Using a live token that only the user `id` holds resets exactly that user's password
      and leaves no user holding the token. */
  lemma ResetOwner(s: Store, token: string, password: string, id: Id, now: Time, salt: nat)
    requires UniqueEmails(s.users) && id in s.users && ResetTokenMatches(s.users[id], Sha256(token), now)
    requires forall other :: other in s.users && other != id ==> s.users[other].resetPasswordToken != Some(Sha256(token))
    requires password != ""
    ensures var r := ResetPassword(s, token, password, now, salt);
            && r.1 == Success(id)
            && UniqueEmails(r.0.users) && id in r.0.users
            && r.0.users[id].email == s.users[id].email && r.0.users[id].isVerified == s.users[id].isVerified
            && MatchPassword(r.0.users[id], password)
            && forall other :: other in r.0.users ==> r.0.users[other].resetPasswordToken != Some(Sha256(token))
  {
    var r := ResetPassword(s, token, password, now, salt);
    assert r.0.users == s.users[id := r.0.users[id]];
    SameEmailKeepsUnique(s.users, id, r.0.users[id]);
  }

  /** The reset round trip: a token issued for a verified user works within ten minutes,
      after which the new password logs in, and the same link cannot be used twice. */
  lemma ResetRoundTrip(s: Store, email: string, token: string, now: Time,
                       password: string, salt: nat, t: Time, later: Time)
    requires UsersWellFormed(s.users)
    requires ForgotPassword(s, Some(email), token, now).1.Success?
    requires s.users[FindByEmail(s.users, NormalizeEmail(email)).value].isVerified
    requires forall id :: id in s.users ==> s.users[id].resetPasswordToken != Some(Sha256(token))
    requires now <= t < now + ResetTokenLifetime
    requires password != ""
    ensures var s1 := ForgotPassword(s, Some(email), token, now).0;
            var s2 := ResetPassword(s1, token, password, t, salt);
            && s2.1.Success?
            && Login(s2.0, email, password).Success?
            && ResetPassword(s2.0, token, password, later, salt).1 == Failure(InvalidToken)
  {
    var id := FindByEmail(s.users, NormalizeEmail(email)).value;
    var s1 := ForgotPassword(s, Some(email), token, now).0;
    assert s1.users == s.users[id := s1.users[id]];
    SameEmailKeepsUnique(s.users, id, s1.users[id]);
    ResetOwner(s1, token, password, id, t, salt);
    var s2 := ResetPassword(s1, token, password, t, salt);
    FindByEmailUnique(s2.0.users, id);
  }
}

=== FILE: candidate_controller.dfy ===
/** Candidate administration: listing per election, creation, field-wise update and
    deletion. */
module CandidateController {
  import opened Common
  import opened Replies
  import opened Text
  import opened VoteModel
  import opened Store
  import opened VoteController

  /** `getCandidates`: the candidates whose election is `electionId` (none if it does not
      exist). */
  function GetCandidates(s: Store, electionId: Id): (r: map<Id, Candidate>)
    ensures forall c :: c in r <==> c in s.candidates && s.candidates[c].electionId == electionId
    ensures forall c :: c in r ==> r[c] == s.candidates[c]
  {
    map c | c in s.candidates && s.candidates[c].electionId == electionId :: s.candidates[c]
  }

  /** The per-election listings partition the candidates: each candidate is listed under
      its own election, and two different elections never list the same candidate. */
  lemma ListingsPartition(s: Store, c: Id, e1: Id, e2: Id)
    requires c in s.candidates
    ensures c in GetCandidates(s, s.candidates[c].electionId)
    ensures e1 != e2 ==> !(c in GetCandidates(s, e1) && c in GetCandidates(s, e2))
    ensures c in GetCandidates(s, e1) ==> GetCandidates(s, e1)[c] == s.candidates[c]
  {
  }

  /** `addCandidate`. `id` is the ObjectId Mongo assigns; a clash is refused as invalid data. */
  function AddCandidate(s: Store, id: Id, name: string, party: string, electionId: Id)
    : (r: (Store, Result<Candidate>))
    ensures electionId !in s.elections ==> r == (s, Failure(ElectionNotFound))
    ensures r.1.Failure? ==> r.0 == s
    ensures r.1.Success? <==> electionId in s.elections && id !in s.candidates
    ensures r.1.Success? ==> r.1.value == Candidate(name, party, electionId, 0)
                             && r.0 == s.(candidates := s.candidates[id := r.1.value])
  {
    if electionId !in s.elections then (s, Failure(ElectionNotFound))
    else if id in s.candidates then (s, Failure(InvalidData))
    else
      var c := Candidate(name, party, electionId, 0);
      (s.(candidates := s.candidates[id := c]), Success(c))
  }

  /** A new candidate starts with a zero tally, so the tallies stay consistent provided its
      id is not already named by some ballot (Mongo's ObjectIds are never reused). */
  lemma AddPreservesTallies(s: Store, id: Id, name: string, party: string, electionId: Id)
    requires TalliesMatch(s)
    requires !CandidateReferenced(s, id)
    ensures TalliesMatch(AddCandidate(s, id, name, party, electionId).0)
  {
    TallyZeroUnreferenced(s, id);
  }

  /** `updateCandidate`: name and party are replaced only when given; the tally and the
      owning election never change. */
  function UpdateCandidate(s: Store, id: Id, name: string, party: string): (r: (Store, Result<Candidate>))
    ensures id !in s.candidates ==> r == (s, Failure(CandidateNotFound))
    ensures id in s.candidates ==>
              && r.1.Success?
              && r.1.value.name == (if Truthy(name) then name else s.candidates[id].name)
              && r.1.value.party == (if Truthy(party) then party else s.candidates[id].party)
              && r.1.value.voteCount == s.candidates[id].voteCount
              && r.1.value.electionId == s.candidates[id].electionId
              && r.0 == s.(candidates := s.candidates[id := r.1.value])
  {
    if id !in s.candidates then (s, Failure(CandidateNotFound))
    else
      var c := s.candidates[id];
      var c' := c.(name := OrElse(name, c.name), party := OrElse(party, c.party));
      (s.(candidates := s.candidates[id := c']), Success(c'))
  }

  lemma UpdatePreservesTallies(s: Store, id: Id, name: string, party: string)
    requires TalliesMatch(s)
    ensures TalliesMatch(UpdateCandidate(s, id, name, party).0)
  {
  }

  /** `deleteCandidate`: only that candidate goes; the ballots naming it stay. */
  function DeleteCandidate(s: Store, id: Id): (r: (Store, Result<()>))
    ensures id !in s.candidates ==> r == (s, Failure(CandidateNotFound))
    ensures id in s.candidates ==> r.1.Success? && r.0 == s.(candidates := s.candidates - {id})
  {
    if id !in s.candidates then (s, Failure(CandidateNotFound))
    else (s.(candidates := s.candidates - {id}), Success(()))
  }

  /** Deleting a candidate keeps the tallies of the rest consistent and its ballots in place. */
  lemma DeletePreservesTallies(s: Store, id: Id)
    requires TalliesMatch(s) && BallotsUnique(s)
    ensures var t := DeleteCandidate(s, id).0;
            TalliesMatch(t) && BallotsUnique(t) && t.ballots == s.ballots
  {
  }

  /** A new candidate is listed under its election, and no other election's list changes;
      deleting it again restores the store. */
  lemma AddedIsListed(s: Store, id: Id, name: string, party: string, electionId: Id, other: Id)
    requires electionId in s.elections && id !in s.candidates
    ensures var s1 := AddCandidate(s, id, name, party, electionId).0;
            && GetCandidates(s1, electionId) == GetCandidates(s, electionId)[id := Candidate(name, party, electionId, 0)]
            && (other != electionId ==> GetCandidates(s1, other) == GetCandidates(s, other))
            && DeleteCandidate(s1, id).0 == s
  {
    var s1 := AddCandidate(s, id, name, party, electionId).0;
    assert s1.candidates - {id} == s.candidates;
  }

  /** A deleted candidate is listed under no election. */
  lemma DeletedIsUnlisted(s: Store, id: Id, electionId: Id)
    requires id in s.candidates
    ensures id !in GetCandidates(DeleteCandidate(s, id).0, electionId)
  {
  }

  /** Deleting a candidate leaves every voter's history as long as before, entry for entry
      on the same election and time; entries whose ballot named the deleted candidate now
      carry no candidate at all, and all others are unchanged. */
  lemma HistoryOutlivesCandidate(s: Store, id: Id, voter: Id)
    requires id in s.candidates
    ensures var mine := BallotsByVoter(s.ballots, voter);
            var h := VoteHistory(s, voter);
            var h1 := VoteHistory(DeleteCandidate(s, id).0, voter);
            && |h1| == |h|
            && (forall i :: 0 <= i < |h| ==> h1[i].electionId == h[i].electionId && h1[i].createdAt == h[i].createdAt)
            && (forall i :: 0 <= i < |h| && mine[i].candidateId == id ==>
                  h[i].candidate == Some(PopulatedCandidate(id, s.candidates[id].name, s.candidates[id].party))
                  && h1[i].candidate.None?)
            && (forall i :: 0 <= i < |h| ==> (h1[i].candidate.None? <==> h[i].candidate.None? || mine[i].candidateId == id))
            && (forall i :: 0 <= i < |h| && mine[i].candidateId != id ==> h1[i] == h[i])
  {
  }
}

=== FILE: common.dfy ===
/** Shared vocabulary of the election platform model: document identifiers,
    millisecond timestamps, an optional value, and counting over sequences. */
module Common {

  /** A document identifier (a MongoDB ObjectId, abstracted to a number). */
  type Id = nat

  /** A point in time as integer milliseconds since the epoch (`Date.now()`). */
  type Time = int

  datatype Option<+T> = None | Some(value: T)

  /** The number of elements of `s` that satisfy `p`, counted from the back so that
      appending one element adds exactly its own contribution. */
  function CountWhere<T>(s: seq<T>, p: T -> bool): (n: nat)
    ensures n <= |s|
  {
    if |s| == 0 then 0
    else CountWhere(s[..|s| - 1], p) + (if p(s[|s| - 1]) then 1 else 0)
  }

  /** Appending one element adds one to the count exactly when it satisfies `p`. */
  lemma CountWhereAppend<T>(s: seq<T>, x: T, p: T -> bool)
    ensures CountWhere(s + [x], p) == CountWhere(s, p) + (if p(x) then 1 else 0)
  {
    assert (s + [x])[..|s|] == s;
  }

  /** The count is zero exactly when no element satisfies `p`. */
  lemma {:induction false} CountWhereZero<T>(s: seq<T>, p: T -> bool)
    ensures CountWhere(s, p) == 0 <==> forall i :: 0 <= i < |s| ==> !p(s[i])
  {
    if |s| > 0 {
      var init := s[..|s| - 1];
      CountWhereZero(init, p);
      assert forall i :: 0 <= i < |init| ==> init[i] == s[i];
    }
  }
}

/** The error replies the controllers send, each with its HTTP status code. */
module Replies {

  datatype Error =
    | ElectionNotFound        // 404 'Election not found'
    | CandidateNotFound       // 404 'Candidate not found'
    | UserNotFound            // 404 'User not found'
    | ElectionNotActive       // 400 'Election is not active'
    | AlreadyVoted            // 400 'You have already voted in this election'
    | InvalidData             // 400 'Invalid data' (a create that Mongoose refused)
    | MissingFields           // 400 'Please add all fields' / 'Please provide email and password ...'
    | InvalidName             // 400 'Name must contain only letters and spaces'
    | UserExists              // 400 'User already exists'
    | InvalidOtp              // 400 'Invalid or expired OTP'
    | AlreadyVerified         // 400 'Email is already verified'
    | CannotDeleteSelf        // 400 'You cannot delete your own account'
    | InvalidToken            // 400 'Invalid token' (password reset)
    | InvalidCredentials      // 401 'Invalid credentials'
    | IncorrectEmail          // 401 'Incorrect email address'
    | IncorrectPassword       // 401 'Incorrect password'
    | NeedsVerification(email: string)  // 403, with `needsVerification: true`
    | ServerError             // 500, the handlers' catch-all (e.g. a failed validation on save)

  function HttpStatus(e: Error): (code: int)
    ensures 400 <= code < 600
    ensures code == 404 <==> e.ElectionNotFound? || e.CandidateNotFound? || e.UserNotFound?
  {
    match e
    case ElectionNotFound | CandidateNotFound | UserNotFound => 404
    case InvalidCredentials | IncorrectEmail | IncorrectPassword => 401
    case NeedsVerification(_) => 403
    case ServerError => 500
    case _ => 400
  }

  datatype Result<+T> = Success(value: T) | Failure(error: Error)
}

/** The least element of a finite set of ids: the model's stand-in for the database's
    natural order when a query can match more than one document. */
module Least {
  import opened Common

  /** A set of naturals with an element no greater than `n` has a least element; by
      descent on `n`. */
  lemma {:induction false} LeastExistsBelow(s: set<Id>, n: nat)
    requires exists y :: y in s && y <= n
    ensures exists m :: m in s && forall y :: y in s ==> m <= y
    decreases n
  {
    if exists y :: y in s && y < n {
      LeastExistsBelow(s, n - 1);
    } else {
      var y :| y in s && y <= n;
      assert y == n;
      assert forall z :: z in s ==> n <= z;
    }
  }

  lemma LeastExists(s: set<Id>)
    requires s != {}
    ensures exists m :: m in s && forall y :: y in s ==> m <= y
  {
    var x :| x in s;
    LeastExistsBelow(s, x);
  }

  function LeastOf(s: set<Id>): (m: Id)
    requires s != {}
    ensures m in s
    ensures forall y :: y in s ==> m <= y
  {
    LeastExists(s);
    var m :| m in s && forall y :: y in s ==> m <= y;
    m
  }
}

=== FILE: election_controller.dfy ===
/** Election administration: the role-filtered listing, lookup, creation, field-wise
    update and deletion. */
module ElectionController {
  import opened Common
  import opened Replies
  import opened Text
  import opened ElectionModel
  import opened UserModel
  import opened Store

  /** What `jwt.verify` makes of a bearer token: the id it was signed for, or a failure
      (bad signature, expired, malformed). Signing itself is not modelled. */
  datatype Token = Signed(userId: Id) | Unverifiable

  /** The `Authorization` header: absent or not starting with `Bearer`, or a bearer token. */
  datatype Credential = NoBearer | Bearer(token: Token)

  /** The listing's admin escalation: a verifiable token of an existing admin user. */
  predicate IsAdminCaller(s: Store, cred: Credential) {
    cred.Bearer? && cred.token.Signed? && cred.token.userId in s.users
    && s.users[cred.token.userId].role == Admin
  }

  /** `getElections`: an admin caller sees every election; anyone else (no token, a bad
      or expired token, a non-admin or deleted user) sees only the active ones. */
  function ListElections(s: Store, cred: Credential): (r: map<Id, Election>)
    ensures forall id :: id in r <==> id in s.elections && (IsAdminCaller(s, cred) || s.elections[id].status == Active)
    ensures forall id :: id in r ==> r[id] == s.elections[id]
  {
    var isAdmin := IsAdminCaller(s, cred);
    map id | id in s.elections && (isAdmin || s.elections[id].status == Active) :: s.elections[id]
  }

  /** An invalid or expired token is treated as public access, not as an error. */
  lemma BadTokenIsPublic(s: Store)
    ensures ListElections(s, Bearer(Unverifiable)) == ListElections(s, NoBearer)
  {
    assert ListElections(s, Bearer(Unverifiable)).Keys == ListElections(s, NoBearer).Keys;
  }

  /** An admin's listing is the whole election collection. */
  lemma AdminSeesAll(s: Store, cred: Credential)
    requires IsAdminCaller(s, cred)
    ensures ListElections(s, cred) == s.elections
  {
    assert ListElections(s, cred).Keys == s.elections.Keys;
  }

  /** `getElectionById`. The lookup has no role filter: anyone may fetch an election by id,
      including one the public listing hides. */
  function GetElection(s: Store, id: Id): (r: Result<Election>)
    ensures r.Success? <==> id in s.elections
    ensures r.Failure? ==> r.error == ElectionNotFound && forall cred :: id !in ListElections(s, cred)
    ensures forall cred :: id in ListElections(s, cred) ==> r == Success(ListElections(s, cred)[id])
    ensures forall cred :: IsAdminCaller(s, cred) ==> (r.Success? <==> id in ListElections(s, cred))
    ensures r.Success? ==> (r.value.status == Active <==> id in ListElections(s, NoBearer))
  {
    if id in s.elections then Success(s.elections[id]) else Failure(ElectionNotFound)
  }

  /** `createElection`. `id` is the ObjectId Mongo assigns; a clash with an existing one
      is refused by the database like any other invalid create. The request's `status`,
      if any, is not forwarded, so a new election is always inactive. */
  function CreateElection(s: Store, id: Id, title: string, description: string,
                          startDate: Option<Time>, endDate: Option<Time>): (r: (Store, Result<Election>))
    ensures r.1.Success? <==> id !in s.elections && title != "" && startDate.Some? && endDate.Some?
    ensures r.1.Failure? ==> r.0 == s && r.1.error == InvalidData
    ensures r.1.Success? ==>
              && r.0 == s.(elections := s.elections[id := r.1.value])
              && r.1.value == Election(title, description, startDate.value, endDate.value, Inactive)
  {
    if id in s.elections then (s, Failure(InvalidData))
    else match NewElection(title, description, startDate, endDate)
      case None => (s, Failure(InvalidData))
      case Some(e) => (s.(elections := s.elections[id := e]), Success(e))
  }

  /** A date field of an update request: absent or empty (falsy, so the stored date is
      kept), a non-empty string Mongoose cannot cast to a date, or one that parses. */
  datatype DateField = Omitted | Unparseable | At(t: Time)

  /** The body of an update request. Absent and empty strings are falsy; the model writes
      absent strings as "". */
  datatype ElectionPatch = ElectionPatch(
    title: string, description: string, startDate: DateField, endDate: DateField, status: string)

  const EmptyPatch := ElectionPatch("", "", Omitted, Omitted, "")

  /** `date || stored` followed by the cast on save: `None` when the date does not cast. */
  function PatchDate(f: DateField, stored: Time): (r: Option<Time>)
    ensures r.None? <==> f.Unparseable?
    ensures r.Some? && r.value != stored ==> f == At(r.value)
  {
    match f
    case Omitted => Some(stored)
    case Unparseable => None
    case At(t) => Some(t)
  }

  /** `field = given || field` on every field, then the save: a truthy date string that does
      not cast to a date, or an unknown status spelling, makes the save fail. */
  function ApplyPatch(e: Election, p: ElectionPatch): (r: Option<Election>)
    ensures r.None? <==> (Truthy(p.status) && ParseStatus(p.status).None?)
                         || p.startDate.Unparseable? || p.endDate.Unparseable?
    ensures r.Some? ==>
              && r.value.title == (if Truthy(p.title) then p.title else e.title)
              && r.value.description == (if Truthy(p.description) then p.description else e.description)
              && r.value.startDate == (if p.startDate.At? then p.startDate.t else e.startDate)
              && r.value.endDate == (if p.endDate.At? then p.endDate.t else e.endDate)
              && (Truthy(p.status) ==> StatusName(r.value.status) == p.status)
              && (!Truthy(p.status) ==> r.value.status == e.status)
  {
    var status := if Truthy(p.status) then ParseStatus(p.status) else Some(e.status);
    var start := PatchDate(p.startDate, e.startDate);
    var end := PatchDate(p.endDate, e.endDate);
    if status.None? || start.None? || end.None? then None
    else
      Some(Election(OrElse(p.title, e.title), OrElse(p.description, e.description),
                    start.value, end.value, status.value))
  }

  /** An empty update keeps the election as it is. */
  lemma EmptyPatchIsIdentity(e: Election)
    ensures ApplyPatch(e, EmptyPatch) == Some(e)
  {
  }

  /** Applying the same update twice gives the same election as applying it once. */
  lemma PatchIdempotent(e: Election, p: ElectionPatch)
    requires ApplyPatch(e, p).Some?
    ensures ApplyPatch(ApplyPatch(e, p).value, p) == ApplyPatch(e, p)
  {
    var e1 := ApplyPatch(e, p).value;
    if Truthy(p.status) {
      var st := ParseStatus(p.status).value;
      StatusRoundTrip(st);
      assert e1.status == st;
    }
  }

  /** `updateElection`. */
  function UpdateElection(s: Store, id: Id, p: ElectionPatch): (r: (Store, Result<Election>))
    ensures id !in s.elections ==> r == (s, Failure(ElectionNotFound))
    ensures id in s.elections && ApplyPatch(s.elections[id], p).None? ==> r == (s, Failure(ServerError))
    ensures r.1.Failure? ==> r.0 == s
    ensures r.1.Success? <==> id in s.elections && ApplyPatch(s.elections[id], p).Some?
    ensures r.1.Success? ==> r.1.value == ApplyPatch(s.elections[id], p).value
                             && r.0 == s.(elections := s.elections[id := r.1.value])
  {
    if id !in s.elections then (s, Failure(ElectionNotFound))
    else match ApplyPatch(s.elections[id], p)
      case None => (s, Failure(ServerError))
      case Some(e) => (s.(elections := s.elections[id := e]), Success(e))
  }

  /** `deleteElection`: only the election goes; its candidates and ballots stay, still
      naming the deleted id. */
  function DeleteElection(s: Store, id: Id): (r: (Store, Result<()>))
    ensures id !in s.elections ==> r == (s, Failure(ElectionNotFound))
    ensures id in s.elections ==> r.1.Success?
                                  && r.0 == s.(elections := s.elections - {id})
  {
    if id !in s.elections then (s, Failure(ElectionNotFound))
    else (s.(elections := s.elections - {id}), Success(()))
  }

  /** After a deletion every candidate and ballot that named the election still does,
      and the tallies and ballot index are unaffected. */
  lemma DeleteLeavesDanglingReferences(s: Store, id: Id)
    requires id in s.elections
    requires BallotsUnique(s) && TalliesMatch(s)
    ensures var t := DeleteElection(s, id).0;
            && id !in t.elections
            && t.candidates == s.candidates && t.ballots == s.ballots
            && BallotsUnique(t) && TalliesMatch(t)
  {
  }

  /** A created election can be fetched by its id but stays out of the public listing
      until an admin activates it; a deleted one is gone from both. */
  lemma CreatedIsHidden(s: Store, id: Id, title: string, description: string, start: Time, end: Time)
    requires id !in s.elections && title != ""
    ensures var s1 := CreateElection(s, id, title, description, Some(start), Some(end)).0;
            && GetElection(s1, id) == Success(Election(title, description, start, end, Inactive))
            && ListElections(s1, NoBearer) == ListElections(s, NoBearer)
            && DeleteElection(s1, id).0 == s
  {
    var s1 := CreateElection(s, id, title, description, Some(start), Some(end)).0;
    assert s1.elections - {id} == s.elections;
  }

  /** After a deletion the election is not found, and not listed to anyone. */
  lemma DeletedIsGone(s: Store, id: Id, cred: Credential)
    requires id in s.elections
    ensures var s1 := DeleteElection(s, id).0;
            GetElection(s1, id) == Failure(ElectionNotFound) && id !in ListElections(s1, cred)
  {
  }
}

=== FILE: election_model.dfy ===
/** The election document: its fields, the status enumeration and its default. */
module ElectionModel {
  import opened Common

  datatype Status = Active | Inactive | Completed

  /** The schema default for `status`. */
  const DefaultStatus: Status := Inactive

  /** The stored spelling of a status. */
  function StatusName(st: Status): string {
    match st
    case Active => "active"
    case Inactive => "inactive"
    case Completed => "completed"
  }

  /** The schema's enum validator: only the three spellings are accepted. */
  function ParseStatus(s: string): (r: Option<Status>)
    ensures r.Some? <==> s == "active" || s == "inactive" || s == "completed"
    ensures r.Some? ==> StatusName(r.value) == s
  {
    if s == "active" then Some(Active)
    else if s == "inactive" then Some(Inactive)
    else if s == "completed" then Some(Completed)
    else None
  }

  lemma StatusRoundTrip(st: Status)
    ensures ParseStatus(StatusName(st)) == Some(st)
  {
  }

  /** `description` is optional; the model writes an absent description as "". */
  datatype Election = Election(
    title: string,
    description: string,
    startDate: Time,
    endDate: Time,
    status: Status)

  /** `Election.create` with the schema's validators: `title`, `startDate` and `endDate`
      are required (an empty title fails `required`), `status` takes its default, and no
      relation between the two dates is checked. */
  function NewElection(title: string, description: string, startDate: Option<Time>, endDate: Option<Time>)
    : (r: Option<Election>)
    ensures r.Some? <==> title != "" && startDate.Some? && endDate.Some?
    ensures r.Some? ==> r.value.title == title && r.value.description == description
                        && r.value.startDate == startDate.value && r.value.endDate == endDate.value
                        && r.value.status == Inactive
  {
    if title == "" || startDate.None? || endDate.None? then None
    else Some(Election(title, description, startDate.value, endDate.value, DefaultStatus))
  }

  /** The schema accepts an election that ends before it starts. */
  lemma NoDateOrderConstraint(title: string, start: Time, end: Time)
    requires title != "" && end < start
    ensures NewElection(title, "", Some(start), Some(end)).Some?
  {
  }
}

=== FILE: otp.dfy ===
/** The one-time passcode: `Math.floor(1000 + Math.random() * 9000).toString()`. The random
    draw is a parameter; any natural number selects one of the 9000 codes. */
module Otp {

  /** Lifetime of a passcode: one minute. */
  const OtpLifetime: int := 1 * 60 * 1000

  function DigitChar(d: nat): (c: char)
    requires d < 10
    ensures '0' <= c <= '9'
  {
    ('0' as int + d) as char
  }

  function DigitValue(c: char): (d: nat)
    requires '0' <= c <= '9'
    ensures d < 10
  {
    c as int - '0' as int
  }

  /** The passcode value chosen by a draw: a number in 1000..9999. */
  function OtpValue(draw: nat): (n: nat)
    ensures 1000 <= n <= 9999
  {
    1000 + draw % 9000
  }

  /** The decimal spelling of a four-digit number. */
  function FourDigits(n: nat): (s: string)
    requires 1000 <= n <= 9999
    ensures |s| == 4
    ensures forall i :: 0 <= i < 4 ==> '0' <= s[i] <= '9'
    ensures s[0] != '0'
  {
    var hundreds := n % 1000;
    var tens := hundreds % 100;
    [DigitChar(n / 1000), DigitChar(hundreds / 100), DigitChar(tens / 10), DigitChar(tens % 10)]
  }

  /** Reading a four-character decimal string back as a number. */
  function ParseFourDigits(s: string): (n: nat)
    requires |s| == 4 && forall i :: 0 <= i < 4 ==> '0' <= s[i] <= '9'
    ensures n <= 9999
  {
    DigitValue(s[0]) * 1000 + DigitValue(s[1]) * 100 + DigitValue(s[2]) * 10 + DigitValue(s[3])
  }

  /** The passcode string a draw produces. */
  function OtpCode(draw: nat): (code: string)
    ensures |code| == 4
  {
    FourDigits(OtpValue(draw))
  }

  /** The spelling is faithful: reading it back gives the drawn number, so distinct
      numbers give distinct passcodes. */
  lemma FourDigitsRoundTrip(n: nat)
    requires 1000 <= n <= 9999
    ensures ParseFourDigits(FourDigits(n)) == n
  {
    var s := FourDigits(n);
    var hundreds := n % 1000;
    var tens := hundreds % 100;
    assert n == n / 1000 * 1000 + hundreds;
    assert hundreds == hundreds / 100 * 100 + tens;
    assert tens == tens / 10 * 10 + tens % 10;
    assert DigitValue(s[0]) == n / 1000;
    assert DigitValue(s[1]) == hundreds / 100;
    assert DigitValue(s[2]) == tens / 10;
    assert DigitValue(s[3]) == tens % 10;
  }

  lemma OtpCodeInjective(n: nat, m: nat)
    requires 1000 <= n <= 9999 && 1000 <= m <= 9999
    requires FourDigits(n) == FourDigits(m)
    ensures n == m
  {
    FourDigitsRoundTrip(n);
    FourDigitsRoundTrip(m);
  }
}

=== FILE: results_page.dfy ===
/** The live results page: the `voteUpdate` reducer, the chart projection, and the rule
    deciding whether a caller may see the tallies. */
module ResultsPage {
  import opened Common
  import opened UserModel
  import opened VoteModel
  import opened Store
  import opened VoteController

  /** A candidate as the page holds it after `GET /candidates/:electionId`. */
  datatype CandidateRow = CandidateRow(id: Id, name: string, voteCount: nat)

  /** The logged-in user as the page sees it, or none. */
  datatype Session = Session(userId: Id, role: Role)

  /** The `voteUpdate` handler for the selected election: an event for another election is
      ignored; otherwise the row with the event's candidate id takes the broadcast count
      (an assignment, not an increment) and every other row is kept, in place. */
  function ApplyVoteUpdate(rows: seq<CandidateRow>, selected: Id, ev: VoteUpdate): (r: seq<CandidateRow>)
    ensures |r| == |rows|
    ensures ev.electionId != selected ==> r == rows
    ensures forall i :: 0 <= i < |rows| ==> r[i].id == rows[i].id && r[i].name == rows[i].name
    ensures forall i :: 0 <= i < |rows| && rows[i].id != ev.candidateId ==> r[i] == rows[i]
    ensures ev.electionId == selected ==>
              forall i :: 0 <= i < |rows| && rows[i].id == ev.candidateId ==> r[i].voteCount == ev.newCount
  {
    if ev.electionId != selected then rows
    else seq(|rows|, i requires 0 <= i < |rows| =>
           if rows[i].id == ev.candidateId then rows[i].(voteCount := ev.newCount) else rows[i])
  }

  /** Receiving the same event twice leaves the same rows as receiving it once. */
  lemma VoteUpdateIdempotent(rows: seq<CandidateRow>, selected: Id, ev: VoteUpdate)
    ensures ApplyVoteUpdate(ApplyVoteUpdate(rows, selected, ev), selected, ev) == ApplyVoteUpdate(rows, selected, ev)
  {
  }

  /** The bar chart's labels and data. */
  datatype Chart = Chart(labels: seq<string>, data: seq<nat>)

  /** `updateChart`: names and tallies, in list order. */
  function ChartOf(rows: seq<CandidateRow>): (c: Chart)
    ensures |c.labels| == |rows| && |c.data| == |rows|
    ensures forall i :: 0 <= i < |rows| ==> c.labels[i] == rows[i].name && c.data[i] == rows[i].voteCount
  {
    Chart(seq(|rows|, i requires 0 <= i < |rows| => rows[i].name),
          seq(|rows|, i requires 0 <= i < |rows| => rows[i].voteCount))
  }

  /** A live update never relabels the chart; it moves at most the bars of the event's candidate. */
  lemma ChartLabelsStable(rows: seq<CandidateRow>, selected: Id, ev: VoteUpdate)
    ensures ChartOf(ApplyVoteUpdate(rows, selected, ev)).labels == ChartOf(rows).labels
    ensures forall i :: 0 <= i < |rows| && rows[i].id != ev.candidateId ==>
              ChartOf(ApplyVoteUpdate(rows, selected, ev)).data[i] == ChartOf(rows).data[i]
  {
  }

  /** A page in step with a consistent store draws each existing candidate's bar at the
      number of ballots naming that candidate. */
  lemma ChartShowsTallies(s: Store, rows: seq<CandidateRow>)
    requires TalliesMatch(s) && InSync(rows, s.candidates)
    ensures |ChartOf(rows).data| == |rows|
    ensures forall i :: 0 <= i < |rows| && rows[i].id in s.candidates ==>
              ChartOf(rows).data[i] == TallyOf(s.ballots, rows[i].id)
              && ChartOf(rows).labels[i] == rows[i].name
  {
  }

  /** The vote history the page loads: the server's reply for a voter, nothing for anyone else. */
  function FetchedHistory(user: Option<Session>, reply: seq<HistoryEntry>): (r: seq<HistoryEntry>)
    ensures user.Some? && user.value.role == Voter ==> r == reply
    ensures !(user.Some? && user.value.role == Voter) ==> r == []
  {
    if user.Some? && user.value.role == Voter then reply else []
  }

  /** Whether the tallies of `selected` are shown rather than the "Results are Locked" panel:
      a logged-in user who is an admin or has a history entry for that election. */
  predicate ResultsUnlocked(user: Option<Session>, history: seq<HistoryEntry>, selected: Id) {
    user.Some? && (user.value.role == Admin || exists i :: 0 <= i < |history| && history[i].electionId == selected)
  }

  /** Put together with the server: a logged-in user sees an election's tallies exactly when
      they are an admin or hold a ballot in it. */
  lemma ResultsVisibility(s: Store, user: Session, selected: Id)
    ensures ResultsUnlocked(Some(user), FetchedHistory(Some(user), VoteHistory(s, user.userId)), selected)
            <==> user.role == Admin || HasBallot(s.ballots, user.userId, selected)
  {
    HistoryIffBallot(s, user.userId, selected);
  }

  /** Nobody who is logged out sees tallies. */
  lemma LoggedOutLocked(history: seq<HistoryEntry>, selected: Id)
    ensures !ResultsUnlocked(None, history, selected)
  {
  }

  // ----- keeping the view in step with the server --------------------------------------

  /** Every row whose candidate still exists shows that candidate's stored tally. */
  predicate InSync(rows: seq<CandidateRow>, candidates: map<Id, Candidate>) {
    forall i :: 0 <= i < |rows| && rows[i].id in candidates ==> rows[i].voteCount == candidates[rows[i].id].voteCount
  }

  /** Every row whose candidate still exists belongs to the selected election, as loaded
      by `GET /candidates/:electionId`. */
  predicate RowsOf(rows: seq<CandidateRow>, candidates: map<Id, Candidate>, selected: Id) {
    forall i :: 0 <= i < |rows| && rows[i].id in candidates ==> candidates[rows[i].id].electionId == selected
  }

  /** With the membership check, a page in step with the server stays in step after any
      successful cast and the event it broadcasts. */
  lemma LiveTallyInSync(s: Store, rows: seq<CandidateRow>, selected: Id,
                        voter: Id, electionId: Id, candidateId: Id, now: Time)
    requires InSync(rows, s.candidates) && RowsOf(rows, s.candidates, selected)
    requires CastVoteChecked(s, voter, electionId, candidateId, now).1.Success?
    ensures var r := CastVoteChecked(s, voter, electionId, candidateId, now);
            InSync(ApplyVoteUpdate(rows, selected, r.1.value), r.0.candidates)
  {
    var r := CastVoteChecked(s, voter, electionId, candidateId, now);
    var rows' := ApplyVoteUpdate(rows, selected, r.1.value);
    forall i | 0 <= i < |rows'| && rows'[i].id in r.0.candidates
      ensures rows'[i].voteCount == r.0.candidates[rows'[i].id].voteCount
    {
    }
  }

  /** Without that check the page drifts: a vote cast in election 2 for a candidate of
      election 1 raises that candidate's stored tally, while the page showing election 1
      drops the event because it names election 2. */
  lemma LiveTallyDriftsAsWritten()
    ensures var s := Store(map[], map[1 := ElectionModel.Election("A", "", 0, 1, ElectionModel.Active),
                                      2 := ElectionModel.Election("B", "", 0, 1, ElectionModel.Active)],
                           map[10 := Candidate("Ann", "P", 1, 0)], []);
            var rows := [CandidateRow(10, "Ann", 0)];
            var r := CastVote(s, 5, 2, 10, 0);
            && InSync(rows, s.candidates) && RowsOf(rows, s.candidates, 1)
            && r.1.Success?
            && !InSync(ApplyVoteUpdate(rows, 1, r.1.value), r.0.candidates)
  {
    var s := Store(map[], map[1 := ElectionModel.Election("A", "", 0, 1, ElectionModel.Active),
                              2 := ElectionModel.Election("B", "", 0, 1, ElectionModel.Active)],
                   map[10 := Candidate("Ann", "P", 1, 0)], []);
    assert !HasBallot(s.ballots, 5, 2);
    var rows := [CandidateRow(10, "Ann", 0)];
    var r := CastVote(s, 5, 2, 10, 0);
    assert r.1.Success?;
    assert r.0.candidates[10].voteCount == 1;
    assert ApplyVoteUpdate(rows, 1, r.1.value) == rows;
    assert rows[0].id in r.0.candidates && rows[0].voteCount != r.0.candidates[rows[0].id].voteCount;
  }
}

=== FILE: store.dfy ===
/** The database as one immutable value: users, elections and candidates keyed by their
    ids, and the ballots in insertion order. */
module Store {
  import opened Common
  import opened ElectionModel
  import opened UserModel
  import opened VoteModel

  /** A candidate document: its name, party, owning election and running tally,
      which starts at zero. */
  datatype Candidate = Candidate(name: string, party: string, electionId: Id, voteCount: nat)

  datatype Store = Store(
    users: map<Id, User>,
    elections: map<Id, Election>,
    candidates: map<Id, Candidate>,
    ballots: seq<Ballot>)

  /** Every candidate's tally is the number of ballots that name it. */
  predicate TalliesMatch(s: Store) {
    forall c :: c in s.candidates ==> s.candidates[c].voteCount == TallyOf(s.ballots, c)
  }

  /** The unique index on ballots holds. */
  predicate BallotsUnique(s: Store) {
    UniqueKeys(s.ballots)
  }

  /** Whether `id` is named by some ballot as its candidate. */
  predicate CandidateReferenced(s: Store, id: Id) {
    exists i :: 0 <= i < |s.ballots| && s.ballots[i].candidateId == id
  }

  lemma TallyZeroUnreferenced(s: Store, id: Id)
    requires !CandidateReferenced(s, id)
    ensures TallyOf(s.ballots, id) == 0
  {
    CountWhereZero(s.ballots, (b: Ballot) => b.candidateId == id);
  }
}

=== FILE: text.dfy ===
/** String handling the server relies on: the `\s` class and `String.prototype.trim`
    of JavaScript, ASCII lower-casing, the e-mail normalisation `email.trim().toLowerCase()`
    and the name pattern `^[a-zA-Z\s]+$`. */
module Text {

  /** A JavaScript white-space or line-terminator code point: the set matched by `\s`
      and removed by `trim()`. */
  predicate IsSpace(c: char) {
    var n := c as int;
    n == 0x09 || n == 0x0A || n == 0x0B || n == 0x0C || n == 0x0D || n == 0x20
    || n == 0xA0 || n == 0x1680 || (0x2000 <= n <= 0x200A) || n == 0x2028 || n == 0x2029
    || n == 0x202F || n == 0x205F || n == 0x3000 || n == 0xFEFF
  }

  predicate IsUpper(c: char) { 'A' <= c <= 'Z' }

  predicate IsLetter(c: char) { 'a' <= c <= 'z' || IsUpper(c) }

  predicate AllSpace(s: string) {
    forall i :: 0 <= i < |s| ==> IsSpace(s[i])
  }

  /** The user-name rule `^[a-zA-Z\s]+$`: non-empty, only ASCII letters and white space. */
  predicate IsValidName(s: string) {
    |s| > 0 && forall i :: 0 <= i < |s| ==> IsLetter(s[i]) || IsSpace(s[i])
  }

  /** JavaScript truthiness of a string field: absent (`undefined`) and `""` are falsy;
      the model writes both as `""`. */
  predicate Truthy(s: string) { s != "" }

  /** The expression `given || current` on string fields: one of the two, the given value
      whenever it is truthy, and falsy only when both are. */
  function OrElse(given: string, current: string): (r: string)
    ensures r == given || r == current
    ensures Truthy(r) <==> Truthy(given) || Truthy(current)
    ensures Truthy(given) ==> r == given
  {
    if Truthy(given) then given else current
  }

  /** `||` on strings is associative with "" as its unit on both sides, and offering the
      same value again changes nothing. */
  lemma OrElseLaws(a: string, b: string, c: string)
    ensures OrElse("", a) == a && OrElse(a, "") == a
    ensures OrElse(a, OrElse(a, b)) == OrElse(a, b)
    ensures OrElse(a, OrElse(b, c)) == OrElse(OrElse(a, b), c)
  {
  }

  /** `s.trimStart()`: drops leading white space. */
  function TrimStart(s: string): (r: string)
    ensures |r| <= |s|
    ensures |r| > 0 ==> !IsSpace(r[0])
  {
    if |s| > 0 && IsSpace(s[0]) then TrimStart(s[1..]) else s
  }

  /** `s.trimEnd()`: drops trailing white space. */
  function TrimEnd(s: string): (r: string)
    ensures |r| <= |s|
    ensures |r| > 0 ==> !IsSpace(r[|r| - 1])
  {
    if |s| > 0 && IsSpace(s[|s| - 1]) then TrimEnd(s[..|s| - 1]) else s
  }

  /** What `trimStart` drops is a white-space prefix, and it keeps the rest as it is. */
  lemma {:induction false} TrimStartIsSuffix(s: string)
    ensures TrimStart(s) == s[|s| - |TrimStart(s)|..] && AllSpace(s[..|s| - |TrimStart(s)|])
    decreases |s|
  {
    if |s| > 0 && IsSpace(s[0]) {
      var r := TrimStart(s[1..]);
      TrimStartIsSuffix(s[1..]);
      assert s[..|s| - |r|] == [s[0]] + s[1..][..|s| - 1 - |r|];
    }
  }

  /** What `trimEnd` drops is a white-space suffix, and it keeps the rest as it is. */
  lemma {:induction false} TrimEndIsPrefix(s: string)
    ensures TrimEnd(s) == s[..|TrimEnd(s)|] && AllSpace(s[|TrimEnd(s)|..])
    decreases |s|
  {
    if |s| > 0 && IsSpace(s[|s| - 1]) {
      var r := TrimEnd(s[..|s| - 1]);
      TrimEndIsPrefix(s[..|s| - 1]);
      assert s[|r|..] == s[..|s| - 1][|r|..] + [s[|s| - 1]];
    }
  }

  /** `s.trim()`: a contiguous middle part of `s` whose cut-off ends are white space and
      whose own ends are not, which leaves exactly one candidate. */
  function Trim(s: string): (r: string)
    ensures |r| <= |s|
    ensures exists i, j :: 0 <= i <= j <= |s| && r == s[i..j] && AllSpace(s[..i]) && AllSpace(s[j..])
    ensures |r| > 0 ==> !IsSpace(r[0]) && !IsSpace(r[|r| - 1])
  {
    var t := TrimStart(s);
    var r := TrimEnd(t);
    var i := |s| - |t|;
    TrimStartIsSuffix(s);
    TrimEndIsPrefix(t);
    assert r == s[i..i + |r|] && AllSpace(s[i + |r|..]) by {
      assert t == s[i..];
      assert s[i + |r|..] == t[|r|..];
    }
    r
  }

  function LowerChar(c: char): (d: char)
    ensures !IsUpper(d)
    ensures IsSpace(d) == IsSpace(c)
    ensures IsLetter(d) == IsLetter(c)
  {
    if IsUpper(c) then (c as int + 32) as char else c
  }

  /** `s.toLowerCase()` restricted to ASCII: every upper-case ASCII letter is mapped to
      its lower-case form; every other character is kept. */
  function Lower(s: string): (r: string)
    ensures |r| == |s|
    ensures forall i :: 0 <= i < |r| ==> !IsUpper(r[i])
    ensures forall i :: 0 <= i < |s| && !IsUpper(s[i]) ==> r[i] == s[i]
    ensures forall i :: 0 <= i < |s| && IsUpper(s[i]) ==> r[i] as int == s[i] as int + 32
  {
    seq(|s|, i requires 0 <= i < |s| => LowerChar(s[i]))
  }

  /** `email.trim().toLowerCase()`, applied by registration, login, OTP verification and
      OTP resend before every lookup. */
  function NormalizeEmail(e: string): string {
    Lower(Trim(e))
  }

  // ----- lemmas ---------------------------------------------------------------

  /** Lower-casing is idempotent and works character by character, so it distributes
      over concatenation. */
  lemma LowerLaws(a: string, b: string)
    ensures Lower(Lower(a)) == Lower(a)
    ensures Lower(a + b) == Lower(a) + Lower(b)
  {
    assert Lower(a + b)[..|a|] == Lower(a);
    assert Lower(a + b)[|a|..] == Lower(b);
  }

  lemma LowerSlice(s: string, a: int, b: int)
    requires 0 <= a <= b <= |s|
    ensures Lower(s)[a..b] == Lower(s[a..b])
  {
  }

  lemma {:induction false} TrimStartLower(s: string)
    ensures TrimStart(Lower(s)) == Lower(TrimStart(s))
    decreases |s|
  {
    if |s| > 0 {
      var l := Lower(s);
      assert l[0] == LowerChar(s[0]);
      if IsSpace(s[0]) {
        LowerSlice(s, 1, |s|);
        assert l[1..] == l[1..|s|];
        assert s[1..] == s[1..|s|];
        TrimStartLower(s[1..]);
        calc {
          TrimStart(l);
          TrimStart(l[1..]);
          TrimStart(Lower(s[1..]));
          Lower(TrimStart(s[1..]));
          Lower(TrimStart(s));
        }
      } else {
        assert TrimStart(l) == l;
        assert TrimStart(s) == s;
      }
    }
  }

  lemma {:induction false} TrimEndLower(s: string)
    ensures TrimEnd(Lower(s)) == Lower(TrimEnd(s))
    decreases |s|
  {
    if |s| > 0 {
      var l := Lower(s);
      var n := |s| - 1;
      assert l[n] == LowerChar(s[n]);
      if IsSpace(s[n]) {
        var init := s[..n];
        LowerSlice(s, 0, n);
        assert l[..n] == Lower(init);
        assert TrimEnd(l) == TrimEnd(Lower(init));
        assert TrimEnd(s) == TrimEnd(init);
        TrimEndLower(init);
      } else {
        assert TrimEnd(l) == l;
        assert TrimEnd(s) == s;
      }
    }
  }

  /** Lower-casing and trimming commute, because lower-casing never turns a
      white-space character into a non-white-space one or back. */
  lemma TrimLowerCommute(s: string)
    ensures Trim(Lower(s)) == Lower(Trim(s))
  {
    TrimStartLower(s);
    TrimEndLower(TrimStart(s));
  }

  lemma {:induction false} TrimStartSpacePrefix(p: string, s: string)
    requires AllSpace(p)
    ensures TrimStart(p + s) == TrimStart(s)
    decreases |p|
  {
    if |p| > 0 {
      assert (p + s)[0] == p[0];
      assert (p + s)[1..] == p[1..] + s;
      TrimStartSpacePrefix(p[1..], s);
    } else {
      assert p + s == s;
    }
  }

  lemma {:induction false} TrimEndSpaceSuffix(s: string, q: string)
    requires AllSpace(q)
    ensures TrimEnd(s + q) == TrimEnd(s)
    decreases |q|
  {
    if |q| > 0 {
      assert (s + q)[|s + q| - 1] == q[|q| - 1];
      assert (s + q)[..|s + q| - 1] == s + q[..|q| - 1];
      TrimEndSpaceSuffix(s, q[..|q| - 1]);
    } else {
      assert s + q == s;
    }
  }

  lemma {:induction false} TrimStartAppend(s: string, q: string)
    requires AllSpace(q)
    ensures TrimStart(s + q) == (if AllSpace(s) then TrimStart(q) else TrimStart(s) + q)
    decreases |s|
  {
    if |s| > 0 {
      assert (s + q)[1..] == s[1..] + q;
      if IsSpace(s[0]) {
        TrimStartAppend(s[1..], q);
      }
    } else {
      assert s + q == q;
    }
  }

  lemma {:induction false} TrimStartAllSpace(s: string)
    requires AllSpace(s)
    ensures TrimStart(s) == ""
    decreases |s|
  {
    if |s| > 0 {
      TrimStartAllSpace(s[1..]);
    }
  }

  /** Surrounding white space never matters to `trim()`. */
  lemma TrimPadding(p: string, s: string, q: string)
    requires AllSpace(p) && AllSpace(q)
    ensures Trim(p + s + q) == Trim(s)
  {
    assert p + s + q == p + (s + q);
    TrimStartSpacePrefix(p, s + q);
    TrimStartAppend(s, q);
    TrimStartAllSpace(q);
    if AllSpace(s) {
      TrimStartAllSpace(s);
    } else {
      TrimEndSpaceSuffix(TrimStart(s), q);
    }
  }

  /** Two addresses that differ only in surrounding white space and ASCII letter case
      normalise to the same stored e-mail. */
  lemma NormalizeEmailVariants(p: string, a: string, q: string, b: string)
    requires AllSpace(p) && AllSpace(q)
    requires Lower(a) == Lower(b)
    ensures NormalizeEmail(p + a + q) == NormalizeEmail(b)
  {
    TrimPadding(p, a, q);
    TrimLowerCommute(a);
    TrimLowerCommute(b);
  }

  /** A normalised address is a fixed point of normalisation, so a stored address is
      found again by the same lookup. */
  lemma NormalizeEmailIdempotent(e: string)
    ensures NormalizeEmail(NormalizeEmail(e)) == NormalizeEmail(e)
  {
    var t := Trim(e);
    TrimLowerCommute(t);
    TrimIdempotent(e);
    LowerLaws(t, "");
  }

  /** A string that neither starts nor ends with white space is its own trim. */
  lemma TrimUnpadded(s: string)
    requires |s| > 0 && !IsSpace(s[0]) && !IsSpace(s[|s| - 1])
    ensures Trim(s) == s
  {
    assert TrimStart(s) == s;
    assert TrimEnd(s) == s;
  }

  /** A trimmed string has nothing left to trim. */
  lemma TrimIdempotent(e: string)
    ensures Trim(Trim(e)) == Trim(e)
  {
    var t := Trim(e);
    if |t| > 0 {
      assert TrimStart(t) == t;
      assert TrimEnd(t) == t;
    }
  }
}

=== FILE: user_model.dfy ===
/** The user document: fields, validators and defaults, the password hashing hook, the
    password check and the reset-token generator. Hash functions are ideal: two hashes
    are equal exactly when their inputs are. */
module UserModel {
  import opened Common
  import opened Text

  datatype Role = Admin | Voter

  /** The schema's enum validator for `role`. */
  function ParseRole(s: string): (r: Option<Role>)
    ensures r == Some(Admin) <==> s == "admin"
    ensures r == Some(Voter) <==> s == "voter"
  {
    if s == "admin" then Some(Admin) else if s == "voter" then Some(Voter) else None
  }

  /** A bcrypt hash of `plain` under a random `salt` (bcrypt itself is not modelled). */
  datatype PasswordHash = Bcrypt(plain: string, salt: nat)

  /** A SHA-256 hex digest of `preimage` (SHA-256 itself is not modelled). */
  datatype Digest = Sha256(preimage: string)

  datatype User = User(
    name: string,
    email: string,
    password: PasswordHash,
    role: Role,
    hasVoted: bool,
    isVerified: bool,
    otp: Option<string>,
    otpExpire: Option<Time>,
    resetPasswordToken: Option<Digest>,
    resetPasswordExpire: Option<Time>)

  /** The schema validators a saved user satisfies: a name made only of letters and
      white space, and non-empty e-mail and password. */
  predicate Valid(u: User) {
    IsValidName(u.name) && u.email != "" && u.password.plain != ""
  }

  /** `matchPassword`: `bcrypt.compare` of a candidate password with the stored hash. */
  predicate MatchPassword(u: User, entered: string) {
    u.password.plain == entered
  }

  /** The `pre('save')` hook. `written` is the plain password written to the document
      since it was loaded (`isModified('password')`), if any; the hook re-hashes only then. */
  function HashOnSave(stored: PasswordHash, written: Option<string>, salt: nat): (h: PasswordHash)
    ensures written.None? ==> h == stored
    ensures written.Some? ==> h.plain == written.value
  {
    match written
    case None => stored
    case Some(p) => Bcrypt(p, salt)
  }

  /** `User.create` from registration: validators on name, e-mail and password, defaults
      `hasVoted = false`, no reset token; the password is hashed by the save hook. */
  function NewUser(name: string, email: string, password: string, role: Role,
                   otp: string, otpExpire: Time, salt: nat): (r: Option<User>)
    ensures r.Some? <==> IsValidName(name) && email != "" && password != ""
    ensures r.Some? ==> Valid(r.value) && MatchPassword(r.value, password)
                        && r.value.name == name && r.value.email == email && r.value.role == role
                        && !r.value.hasVoted && !r.value.isVerified
                        && r.value.otp == Some(otp) && r.value.otpExpire == Some(otpExpire)
                        && r.value.resetPasswordToken.None? && r.value.resetPasswordExpire.None?
  {
    if !IsValidName(name) || email == "" || password == "" then None
    else Some(User(name, email, HashOnSave(Bcrypt("", 0), Some(password), salt), role,
                   false, false, Some(otp), Some(otpExpire), None, None))
  }

  /** Lifetime of a password-reset token: ten minutes. */
  const ResetTokenLifetime: int := 10 * 60 * 1000

  /** `getResetPasswordToken`: `token` is the random hex string the caller receives; the
      document keeps only its digest and an expiry ten minutes after `now`. */
  function IssueResetToken(u: User, token: string, now: Time): (r: (User, string))
    ensures r.1 == token
    ensures r.0.resetPasswordToken == Some(Sha256(token)) && r.0.resetPasswordExpire == Some(now + 600000)
    ensures r.0 == u.(resetPasswordToken := r.0.resetPasswordToken, resetPasswordExpire := r.0.resetPasswordExpire)
  {
    (u.(resetPasswordToken := Some(Sha256(token)), resetPasswordExpire := Some(now + ResetTokenLifetime)), token)
  }
}

=== FILE: vote_controller.dfy ===
/** Casting a vote, a voter's own history and the administrators' audit log, as pure
    transitions and queries over the store. Each request is one atomic step. */
module VoteController {
  import opened Common
  import opened Replies
  import opened ElectionModel
  import opened VoteModel
  import opened Store

  /** The payload of the `voteUpdate` event broadcast after a successful cast. */
  datatype VoteUpdate = VoteUpdate(electionId: Id, candidateId: Id, newCount: nat)

  /** Step 4 of a cast: load the candidate and add one to its tally, if it exists. */
  function IncrementTally(candidates: map<Id, Candidate>, id: Id): (r: map<Id, Candidate>)
    ensures r.Keys == candidates.Keys
    ensures forall c :: c in candidates && c != id ==> r[c] == candidates[c]
    ensures id in candidates ==> r[id] == candidates[id].(voteCount := candidates[id].voteCount + 1)
  {
    if id in candidates then candidates[id := candidates[id].(voteCount := candidates[id].voteCount + 1)]
    else candidates
  }

  /** `castVote` for the authenticated `voter`. The checks run in a fixed order: the
      election exists, it is active, the voter has no ballot in it. Then the ballot is
      recorded, the candidate's tally (if the candidate exists) goes up by one, and the
      emitted event carries the new tally, or 0 for a missing candidate. The election's
      dates are never read, and the candidate is never checked to belong to the election. */
  function CastVote(s: Store, voter: Id, electionId: Id, candidateId: Id, now: Time)
    : (r: (Store, Result<VoteUpdate>))
    ensures electionId !in s.elections ==> r == (s, Failure(ElectionNotFound))
    ensures electionId in s.elections && s.elections[electionId].status != Active
            ==> r == (s, Failure(ElectionNotActive))
    ensures (electionId in s.elections && s.elections[electionId].status == Active
             && HasBallot(s.ballots, voter, electionId)) ==> r == (s, Failure(AlreadyVoted))
    ensures r.1.Success? <==> electionId in s.elections && s.elections[electionId].status == Active
                              && !HasBallot(s.ballots, voter, electionId)
    ensures r.1.Failure? ==> r.0 == s
    ensures r.1.Success? ==>
              && r.0.ballots == s.ballots + [Ballot(voter, candidateId, electionId, now)]
              && r.0.users == s.users && r.0.elections == s.elections
              && r.0.candidates.Keys == s.candidates.Keys
              && (forall c :: c in s.candidates && c != candidateId ==> r.0.candidates[c] == s.candidates[c])
              && (candidateId in s.candidates ==>
                    r.0.candidates[candidateId].voteCount == s.candidates[candidateId].voteCount + 1
                    && r.0.candidates[candidateId].name == s.candidates[candidateId].name
                    && r.0.candidates[candidateId].party == s.candidates[candidateId].party
                    && r.0.candidates[candidateId].electionId == s.candidates[candidateId].electionId)
              && r.1.value.electionId == electionId && r.1.value.candidateId == candidateId
              && r.1.value.newCount == (if candidateId in s.candidates then r.0.candidates[candidateId].voteCount else 0)
  {
    if electionId !in s.elections then (s, Failure(ElectionNotFound))
    else if s.elections[electionId].status != Active then (s, Failure(ElectionNotActive))
    else if HasBallot(s.ballots, voter, electionId) then (s, Failure(AlreadyVoted))
    else
      match InsertBallot(s.ballots, Ballot(voter, candidateId, electionId, now))
      // the unique index refusing the insert (only reachable by a concurrent request)
      case None => (s, Failure(ServerError))
      case Some(ballots) =>
        var candidates := IncrementTally(s.candidates, candidateId);
        var newCount := if candidateId in candidates then candidates[candidateId].voteCount else 0;
        (s.(ballots := ballots, candidates := candidates), Success(VoteUpdate(electionId, candidateId, newCount)))
  }

  /** `castVote` on the raw request body, where `None` is an absent `candidateId`. The
      election and duplicate checks never read the candidate, so they answer as usual; a
      request that passes them reaches `Vote.create`, whose `required` validator refuses the
      ballot, and the catch answers 500 with nothing stored. */
  function CastVoteRequest(s: Store, voter: Id, electionId: Id, candidateId: Option<Id>, now: Time)
    : (r: (Store, Result<VoteUpdate>))
    ensures candidateId.Some? ==> r == CastVote(s, voter, electionId, candidateId.value, now)
    ensures candidateId.None? ==> r.0 == s && r.1.Failure?
    ensures candidateId.None? ==>
              forall c :: CastVote(s, voter, electionId, c, now).1.Failure? ==> r == CastVote(s, voter, electionId, c, now)
    ensures candidateId.None? ==>
              forall c :: CastVote(s, voter, electionId, c, now).1.Success? ==> r == (s, Failure(ServerError))
  {
    match candidateId
    case Some(c) => CastVote(s, voter, electionId, c, now)
    case None =>
      if electionId !in s.elections then (s, Failure(ElectionNotFound))
      else if s.elections[electionId].status != Active then (s, Failure(ElectionNotActive))
      else if HasBallot(s.ballots, voter, electionId) then (s, Failure(AlreadyVoted))
      else (s, Failure(ServerError))
  }

  /** `castVote` with the membership check the endpoint evidently intends: after the
      election and duplicate checks, a candidate that does not exist or belongs to another
      election is refused and nothing is recorded. Otherwise it behaves as `CastVote`. */
  function CastVoteChecked(s: Store, voter: Id, electionId: Id, candidateId: Id, now: Time)
    : (r: (Store, Result<VoteUpdate>))
    ensures r.1.Failure? ==> r.0 == s
    ensures r.1.Success? <==> CastVote(s, voter, electionId, candidateId, now).1.Success?
                              && candidateId in s.candidates && s.candidates[candidateId].electionId == electionId
    ensures r.1.Success? ==> r == CastVote(s, voter, electionId, candidateId, now)
    ensures CastVote(s, voter, electionId, candidateId, now).1.Failure? ==> r == CastVote(s, voter, electionId, candidateId, now)
  {
    var asWritten := CastVote(s, voter, electionId, candidateId, now);
    if asWritten.1.Failure? then asWritten
    else if candidateId !in s.candidates || s.candidates[candidateId].electionId != electionId
    then (s, Failure(CandidateNotFound))
    else asWritten
  }

  /** A cast keeps the unique index on ballots. */
  lemma CastPreservesUniqueness(s: Store, voter: Id, electionId: Id, candidateId: Id, now: Time)
    requires BallotsUnique(s)
    ensures BallotsUnique(CastVote(s, voter, electionId, candidateId, now).0)
  {
    var r := CastVote(s, voter, electionId, candidateId, now);
    if r.1.Success? {
      assert InsertBallot(s.ballots, Ballot(voter, candidateId, electionId, now)).Some?;
    }
  }

  /** A cast keeps every candidate's tally equal to the number of ballots naming it;
      a ballot for a missing candidate is recorded but counted nowhere. */
  lemma CastPreservesTallies(s: Store, voter: Id, electionId: Id, candidateId: Id, now: Time)
    requires TalliesMatch(s)
    ensures TalliesMatch(CastVote(s, voter, electionId, candidateId, now).0)
  {
    var r := CastVote(s, voter, electionId, candidateId, now);
    if r.1.Success? {
      var b := Ballot(voter, candidateId, electionId, now);
      forall c | c in r.0.candidates
        ensures r.0.candidates[c].voteCount == TallyOf(r.0.ballots, c)
      {
        CountWhereAppend(s.ballots, b, (x: Ballot) => x.candidateId == c);
      }
    }
  }

  /** The corrected cast keeps both ballot invariants, and every ballot it records names
      a candidate of the election it was cast in. */
  lemma CheckedCastPreservesInvariants(s: Store, voter: Id, electionId: Id, candidateId: Id, now: Time)
    requires TalliesMatch(s) && BallotsUnique(s)
    ensures var r := CastVoteChecked(s, voter, electionId, candidateId, now);
            && TalliesMatch(r.0) && BallotsUnique(r.0)
            && (r.1.Success? ==> candidateId in r.0.candidates && r.0.candidates[candidateId].electionId == electionId)
  {
    CastPreservesTallies(s, voter, electionId, candidateId, now);
    CastPreservesUniqueness(s, voter, electionId, candidateId, now);
  }

  /** With consistent tallies, the count a successful cast broadcasts for an existing
      candidate is exactly the number of ballots that now name it. */
  lemma EmittedCountIsTally(s: Store, voter: Id, electionId: Id, candidateId: Id, now: Time)
    requires TalliesMatch(s)
    requires CastVote(s, voter, electionId, candidateId, now).1.Success?
    requires candidateId in s.candidates
    ensures CastVote(s, voter, electionId, candidateId, now).1.value.newCount
            == TallyOf(CastVote(s, voter, electionId, candidateId, now).0.ballots, candidateId)
  {
    CastPreservesTallies(s, voter, electionId, candidateId, now);
  }

  /** Re-submitting after a successful cast, for any candidate and at any time, is refused
      with AlreadyVoted and changes nothing: no tally moves twice. */
  lemma RecastRejected(s: Store, voter: Id, electionId: Id, candidateId: Id, now: Time,
                       otherCandidate: Id, later: Time)
    requires CastVote(s, voter, electionId, candidateId, now).1.Success?
    ensures var s1 := CastVote(s, voter, electionId, candidateId, now).0;
            CastVote(s1, voter, electionId, otherCandidate, later) == (s1, Failure(AlreadyVoted))
  {
    var s1 := CastVote(s, voter, electionId, candidateId, now).0;
    assert s1.ballots[|s.ballots|] == Ballot(voter, candidateId, electionId, now);
    assert HasBallot(s1.ballots, voter, electionId);
  }

  /** Status is the only gate: two stores whose elections differ only in their dates give
      the same reply to the same cast, with the same ballots and tallies. */
  lemma CastIgnoresDates(s: Store, t: Store, voter: Id, electionId: Id, candidateId: Id, now: Time)
    requires s.candidates == t.candidates && s.ballots == t.ballots
    requires s.elections.Keys == t.elections.Keys
    requires forall e :: e in s.elections ==> s.elections[e].status == t.elections[e].status
    ensures CastVote(s, voter, electionId, candidateId, now).1 == CastVote(t, voter, electionId, candidateId, now).1
    ensures CastVote(s, voter, electionId, candidateId, now).0.ballots
            == CastVote(t, voter, electionId, candidateId, now).0.ballots
    ensures CastVote(s, voter, electionId, candidateId, now).0.candidates
            == CastVote(t, voter, electionId, candidateId, now).0.candidates
  {
  }

  // ----- sequences of casts ------------------------------------------------------

  datatype CastRequest = CastRequest(voter: Id, electionId: Id, candidateId: Id, at: Time)

  /** Serve the requests one after the other, collecting the replies. */
  function CastAll(s: Store, reqs: seq<CastRequest>): (r: (Store, seq<Result<VoteUpdate>>))
    ensures |r.1| == |reqs|
    decreases |reqs|
  {
    if |reqs| == 0 then (s, [])
    else
      var q := reqs[0];
      var step := CastVote(s, q.voter, q.electionId, q.candidateId, q.at);
      var rest := CastAll(step.0, reqs[1..]);
      (rest.0, [step.1] + rest.1)
  }

  /** Across any sequence of casts: ballots are only appended, the unique index holds, every
      tally equals its ballot count, and users and elections are untouched. */
  lemma {:induction false} CastAllPreservesInvariants(s: Store, reqs: seq<CastRequest>)
    requires BallotsUnique(s) && TalliesMatch(s)
    ensures var f := CastAll(s, reqs).0;
            BallotsUnique(f) && TalliesMatch(f)
            && s.ballots <= f.ballots && f.users == s.users && f.elections == s.elections
            && f.candidates.Keys == s.candidates.Keys
    decreases |reqs|
  {
    if |reqs| > 0 {
      var q := reqs[0];
      CastPreservesUniqueness(s, q.voter, q.electionId, q.candidateId, q.at);
      CastPreservesTallies(s, q.voter, q.electionId, q.candidateId, q.at);
      var s1 := CastVote(s, q.voter, q.electionId, q.candidateId, q.at).0;
      CastAllPreservesInvariants(s1, reqs[1..]);
    }
  }

  /** Once a voter has a ballot in an election, every further request of theirs for that
      election, naming any candidate, is refused and the store stays as it is. */
  lemma {:induction false} LaterCastsRejected(s: Store, voter: Id, electionId: Id, reqs: seq<CastRequest>)
    requires electionId in s.elections && s.elections[electionId].status == Active
    requires HasBallot(s.ballots, voter, electionId)
    requires forall i :: 0 <= i < |reqs| ==> reqs[i].voter == voter && reqs[i].electionId == electionId
    ensures CastAll(s, reqs).0 == s
    ensures forall i :: 0 <= i < |reqs| ==> CastAll(s, reqs).1[i] == Failure(AlreadyVoted)
    decreases |reqs|
  {
    if |reqs| > 0 {
      LaterCastsRejected(s, voter, electionId, reqs[1..]);
    }
  }

  /** Any number of requests by one voter for one active election, with varying candidates,
      leave exactly one new ballot: the first request succeeds and every other is refused. */
  lemma OneBallotPerVoter(s: Store, voter: Id, electionId: Id, reqs: seq<CastRequest>)
    requires electionId in s.elections && s.elections[electionId].status == Active
    requires !HasBallot(s.ballots, voter, electionId)
    requires |reqs| > 0
    requires forall i :: 0 <= i < |reqs| ==> reqs[i].voter == voter && reqs[i].electionId == electionId
    ensures CastAll(s, reqs).1[0].Success?
    ensures forall i :: 1 <= i < |reqs| ==> CastAll(s, reqs).1[i] == Failure(AlreadyVoted)
    ensures CastAll(s, reqs).0.ballots
            == s.ballots + [Ballot(voter, reqs[0].candidateId, electionId, reqs[0].at)]
  {
    var q := reqs[0];
    var s1 := CastVote(s, q.voter, q.electionId, q.candidateId, q.at).0;
    assert s1.ballots[|s.ballots|] == Ballot(voter, q.candidateId, electionId, q.at);
    LaterCastsRejected(s1, voter, electionId, reqs[1..]);
  }

  // ----- history and audit ---------------------------------------------------------

  /** `Vote.find({ voterId })`: the voter's ballots, in insertion order. */
  function BallotsByVoter(ballots: seq<Ballot>, voter: Id): (r: seq<Ballot>)
    ensures forall i :: 0 <= i < |r| ==> r[i].voterId == voter
    ensures forall b :: b in r <==> b in ballots && b.voterId == voter
    ensures |r| == CountWhere(ballots, (b: Ballot) => b.voterId == voter)
    decreases |ballots|
  {
    if |ballots| == 0 then []
    else
      var init := ballots[..|ballots| - 1];
      var last := ballots[|ballots| - 1];
      assert ballots == init + [last];
      BallotsByVoter(init, voter) + (if last.voterId == voter then [last] else [])
  }

  /** The query keeps the stored order: the voter's ballots among `a` come before those
      among `b`. With `BallotsBySingle` this fixes the result as the order-preserving
      filter of the ballots. */
  lemma {:induction false} BallotsByVoterAppend(a: seq<Ballot>, b: seq<Ballot>, voter: Id)
    ensures BallotsByVoter(a + b, voter) == BallotsByVoter(a, voter) + BallotsByVoter(b, voter)
    decreases |b|
  {
    if |b| == 0 {
      assert a + b == a;
    } else {
      var init := b[..|b| - 1];
      var last := b[|b| - 1];
      var tail := if last.voterId == voter then [last] else [];
      assert (a + b)[..|a + b| - 1] == a + init;
      assert (a + b)[|a + b| - 1] == last;
      assert BallotsByVoter(a + b, voter) == BallotsByVoter(a + init, voter) + tail;
      assert BallotsByVoter(b, voter) == BallotsByVoter(init, voter) + tail;
      BallotsByVoterAppend(a, init, voter);
    }
  }

  /** A single ballot is kept exactly when it is the voter's. */
  lemma BallotsBySingle(x: Ballot, voter: Id)
    ensures BallotsByVoter([x], voter) == (if x.voterId == voter then [x] else [])
  {
    assert [x][..0] == [];
  }

  /** What `populate('candidateId', 'name party')` puts in place of the ballot's candidate
      id: the candidate's id, name and party. */
  datatype PopulatedCandidate = PopulatedCandidate(id: Id, name: string, party: string)

  /** One entry of a voter's history. `candidate` is the reply's `candidateId` field: the
      populated candidate, or `None` (JSON `null`) once that candidate has been deleted, so
      the reply then carries no candidate id at all. */
  datatype HistoryEntry = HistoryEntry(electionId: Id, candidate: Option<PopulatedCandidate>, createdAt: Time)

  function Populate(s: Store, b: Ballot): (h: HistoryEntry)
    ensures h.electionId == b.electionId && h.createdAt == b.createdAt
    ensures h.candidate.Some? <==> b.candidateId in s.candidates
    ensures h.candidate.Some? ==>
              && h.candidate.value.id == b.candidateId
              && h.candidate.value.name == s.candidates[b.candidateId].name
              && h.candidate.value.party == s.candidates[b.candidateId].party
  {
    var c := if b.candidateId in s.candidates
             then Some(PopulatedCandidate(b.candidateId, s.candidates[b.candidateId].name, s.candidates[b.candidateId].party))
             else None;
    HistoryEntry(b.electionId, c, b.createdAt)
  }

  /** `getVoteHistory`: exactly the caller's own ballots, with their candidates populated. */
  function VoteHistory(s: Store, voter: Id): (r: seq<HistoryEntry>)
    ensures |r| == |BallotsByVoter(s.ballots, voter)|
    ensures forall i :: 0 <= i < |r| ==> r[i] == Populate(s, BallotsByVoter(s.ballots, voter)[i])
  {
    var mine := BallotsByVoter(s.ballots, voter);
    seq(|mine|, i requires 0 <= i < |mine| => Populate(s, mine[i]))
  }

  /** The history has an entry for an election exactly when the voter holds a ballot in
      it, whatever has become of the candidate. */
  lemma HistoryIffBallot(s: Store, voter: Id, e: Id)
    ensures (exists i :: 0 <= i < |VoteHistory(s, voter)| && VoteHistory(s, voter)[i].electionId == e)
            <==> HasBallot(s.ballots, voter, e)
  {
    var mine := BallotsByVoter(s.ballots, voter);
    var r := VoteHistory(s, voter);
    if HasBallot(s.ballots, voter, e) {
      var k :| 0 <= k < |s.ballots| && s.ballots[k].voterId == voter && s.ballots[k].electionId == e;
      assert s.ballots[k] in mine;
      var i :| 0 <= i < |mine| && mine[i] == s.ballots[k];
      assert r[i].electionId == e;
    }
    if exists i :: 0 <= i < |r| && r[i].electionId == e {
      var i :| 0 <= i < |r| && r[i].electionId == e;
      assert mine[i] in s.ballots;
    }
  }

  /** A successful cast adds the new ballot at the end of the caster's history query and
      leaves every other voter's as it was. */
  lemma HistoryAfterCast(s: Store, voter: Id, electionId: Id, candidateId: Id, now: Time, other: Id)
    requires CastVote(s, voter, electionId, candidateId, now).1.Success?
    ensures var s1 := CastVote(s, voter, electionId, candidateId, now).0;
            && BallotsByVoter(s1.ballots, voter)
               == BallotsByVoter(s.ballots, voter) + [Ballot(voter, candidateId, electionId, now)]
            && (other != voter ==> BallotsByVoter(s1.ballots, other) == BallotsByVoter(s.ballots, other))
  {
    var b := Ballot(voter, candidateId, electionId, now);
    BallotsByVoterAppend(s.ballots, [b], voter);
    BallotsByVoterAppend(s.ballots, [b], other);
    BallotsBySingle(b, voter);
    BallotsBySingle(b, other);
  }

  /** An audit-log row: the ballot without its candidate (`select('-candidateId')`). */
  datatype AuditEntry = AuditEntry(voterId: Id, electionId: Id, createdAt: Time)

  function WithoutCandidate(ballots: seq<Ballot>): (r: seq<AuditEntry>)
    ensures |r| == |ballots|
    ensures forall i :: 0 <= i < |r| ==>
              r[i] == AuditEntry(ballots[i].voterId, ballots[i].electionId, ballots[i].createdAt)
  {
    seq(|ballots|, i requires 0 <= i < |ballots| =>
      AuditEntry(ballots[i].voterId, ballots[i].electionId, ballots[i].createdAt))
  }

  /** Whether two ballot lists agree position by position on everything but the candidate. */
  predicate SameButCandidate(a: seq<Ballot>, b: seq<Ballot>) {
    |a| == |b|
    && forall i :: 0 <= i < |a| ==>
         a[i].voterId == b[i].voterId && a[i].electionId == b[i].electionId && a[i].createdAt == b[i].createdAt
  }

  /** The projection forgets the candidate and nothing else: two ballot lists project to
      the same rows exactly when they differ at most in the candidates named. */
  lemma WithoutCandidateForgetsChoice(a: seq<Ballot>, b: seq<Ballot>)
    ensures WithoutCandidate(a) == WithoutCandidate(b) <==> SameButCandidate(a, b)
  {
    if WithoutCandidate(a) == WithoutCandidate(b) {
      assert |a| == |b|;
      forall i | 0 <= i < |a|
        ensures a[i].voterId == b[i].voterId && a[i].electionId == b[i].electionId && a[i].createdAt == b[i].createdAt
      {
        assert WithoutCandidate(a)[i] == WithoutCandidate(b)[i];
      }
    }
  }

  predicate NewestFirst(es: seq<AuditEntry>) {
    forall i, j :: 0 <= i < j < |es| ==> es[i].createdAt >= es[j].createdAt
  }

  /** A permutation of `es` plus `x` is no newer than a bound both respect. */
  lemma NoNewerThan(r: seq<AuditEntry>, es: seq<AuditEntry>, x: AuditEntry, bound: Time)
    requires multiset(r) == multiset(es) + multiset{x}
    requires x.createdAt <= bound && forall k :: 0 <= k < |es| ==> es[k].createdAt <= bound
    ensures forall k :: 0 <= k < |r| ==> r[k].createdAt <= bound
  {
    forall k | 0 <= k < |r|
      ensures r[k].createdAt <= bound
    {
      assert r[k] in multiset(r);
      if r[k] != x {
        assert r[k] in multiset(es);
      }
    }
  }

  function InsertNewestFirst(x: AuditEntry, es: seq<AuditEntry>): (r: seq<AuditEntry>)
    requires NewestFirst(es)
    ensures NewestFirst(r)
    ensures multiset(r) == multiset(es) + multiset{x}
    ensures |r| == |es| + 1
    decreases |es|
  {
    if |es| == 0 || x.createdAt >= es[0].createdAt then [x] + es
    else
      var rest := InsertNewestFirst(x, es[1..]);
      assert es == [es[0]] + es[1..];
      NoNewerThan(rest, es[1..], x, es[0].createdAt);
      [es[0]] + rest
  }

  /** `sort({ createdAt: -1 })`. Entries with equal timestamps may come in any order in
      the database; this model fixes one. */
  function SortNewestFirst(es: seq<AuditEntry>): (r: seq<AuditEntry>)
    ensures NewestFirst(r)
    ensures multiset(r) == multiset(es)
    ensures |r| == |es|
    decreases |es|
  {
    if |es| == 0 then []
    else
      assert es == [es[0]] + es[1..];
      InsertNewestFirst(es[0], SortNewestFirst(es[1..]))
  }

  /** `getAllVotes`: every ballot, newest first, with the candidate removed. */
  function AllVotes(s: Store): (r: seq<AuditEntry>)
    ensures NewestFirst(r)
    ensures multiset(r) == multiset(WithoutCandidate(s.ballots))
    ensures |r| == |s.ballots|
  {
    SortNewestFirst(WithoutCandidate(s.ballots))
  }

  /** Ballot secrecy of the audit log: two ballot stores that agree on who voted where and
      when, whatever candidates they name, produce the same audit log. */
  lemma AuditIgnoresChoice(s: Store, t: Store)
    requires SameButCandidate(s.ballots, t.ballots)
    ensures AllVotes(s) == AllVotes(t)
  {
    WithoutCandidateForgetsChoice(s.ballots, t.ballots);
  }

  /** Every audit row stands for a recorded ballot, and every ballot has a row. */
  lemma AuditCoversBallots(s: Store, i: int)
    requires 0 <= i < |s.ballots|
    ensures AuditEntry(s.ballots[i].voterId, s.ballots[i].electionId, s.ballots[i].createdAt) in AllVotes(s)
  {
    var w := WithoutCandidate(s.ballots);
    assert w[i] in multiset(w);
  }
}

=== FILE: vote_model.dfy ===
/** The ballot document and its unique index on (voterId, electionId). */
module VoteModel {
  import opened Common

  /** One cast vote. All three references are required; `createdAt` is the timestamp
      Mongoose adds on creation. */
  datatype Ballot = Ballot(voterId: Id, candidateId: Id, electionId: Id, createdAt: Time)

  /** Whether some ballot of `voter` in `election` exists (`Vote.findOne({voterId, electionId})`). */
  predicate HasBallot(ballots: seq<Ballot>, voter: Id, election: Id) {
    exists i :: 0 <= i < |ballots| && ballots[i].voterId == voter && ballots[i].electionId == election
  }

  /** The unique index: no two ballots share a (voterId, electionId) key. The candidate
      is not part of the key. */
  predicate UniqueKeys(ballots: seq<Ballot>) {
    forall i, j :: 0 <= i < j < |ballots| ==>
      ballots[i].voterId != ballots[j].voterId || ballots[i].electionId != ballots[j].electionId
  }

  /** `Vote.create` against the unique index: the insert is refused when a ballot with
      the same key exists, whatever candidate either names. */
  function InsertBallot(ballots: seq<Ballot>, b: Ballot): (r: Option<seq<Ballot>>)
    ensures r.None? <==> HasBallot(ballots, b.voterId, b.electionId)
    ensures r.Some? ==> r.value == ballots + [b]
    ensures r.Some? && UniqueKeys(ballots) ==> UniqueKeys(r.value)
  {
    if HasBallot(ballots, b.voterId, b.electionId) then None else Some(ballots + [b])
  }

  /** The number of ballots naming `candidate`. */
  function TallyOf(ballots: seq<Ballot>, candidate: Id): nat {
    CountWhere(ballots, (b: Ballot) => b.candidateId == candidate)
  }

  /** The number of ballots of `voter` in `election`. */
  function BallotsOf(ballots: seq<Ballot>, voter: Id, election: Id): nat {
    CountWhere(ballots, (b: Ballot) => b.voterId == voter && b.electionId == election)
  }

  /** Under the unique index each (voter, election) pair has at most one ballot. */
  lemma {:induction false} AtMostOneBallot(ballots: seq<Ballot>, voter: Id, election: Id)
    requires UniqueKeys(ballots)
    ensures BallotsOf(ballots, voter, election) <= 1
    ensures BallotsOf(ballots, voter, election) == 1 <==> HasBallot(ballots, voter, election)
    decreases |ballots|
  {
    var p := (b: Ballot) => b.voterId == voter && b.electionId == election;
    if |ballots| > 0 {
      var init := ballots[..|ballots| - 1];
      var last := ballots[|ballots| - 1];
      assert ballots == init + [last];
      CountWhereAppend(init, last, p);
      assert UniqueKeys(init);
      AtMostOneBallot(init, voter, election);
      if !p(last) {
        if HasBallot(ballots, voter, election) {
          var i :| 0 <= i < |ballots| && ballots[i].voterId == voter && ballots[i].electionId == election;
          assert i < |init| && init[i] == ballots[i];
        }
      }
    }
  }
}

=== FILE: voter_dashboard.dfy ===
/** The voter dashboard: which elections it lists, the "already voted" mapping built
    from the vote history, the per-election candidate cache and the ballot panel. */
module VoterDashboard {
  import opened Common
  import opened Text
  import opened ElectionModel
  import opened VoteModel
  import opened Store
  import opened VoteController
  import opened ElectionController

  /** The client-side filter on the listing: only elections whose status is active. */
  function ActiveOnly(listing: map<Id, Election>): (r: map<Id, Election>)
    ensures forall id :: id in r <==> id in listing && listing[id].status == Active
    ensures forall id :: id in r ==> r[id] == listing[id]
  {
    map id | id in listing && listing[id].status == Active :: listing[id]
  }

  /** The dashboard asks for `/elections` without a token, so the server already returns
      only active elections and the client filter changes nothing. */
  lemma ActiveFilterRedundant(s: Store)
    ensures ActiveOnly(ListElections(s, NoBearer)) == ListElections(s, NoBearer)
  {
  }

  /** The filter would matter for an admin listing: it keeps exactly the active elections. */
  lemma ActiveFilterOfAdminListing(s: Store, cred: Credential)
    requires IsAdminCaller(s, cred)
    ensures ActiveOnly(ListElections(s, cred)) == ListElections(s, NoBearer)
  {
  }

  /** The text shown for a history entry: the populated candidate's name when it is
      non-empty, otherwise "Unknown" (a deleted candidate populates to null). */
  function Label(h: HistoryEntry): (r: string)
    ensures Truthy(r)
    ensures h.candidate.Some? && Truthy(h.candidate.value.name) ==> r == h.candidate.value.name
    ensures !(h.candidate.Some? && Truthy(h.candidate.value.name)) ==> r == "Unknown"
  {
    if h.candidate.Some? && Truthy(h.candidate.value.name) then h.candidate.value.name else "Unknown"
  }

  /** The `{ electionId: candidateName }` object built by walking the history in order;
      a later entry for the same election overwrites an earlier one. */
  function HistoryMapping(history: seq<HistoryEntry>): (m: map<Id, string>)
    ensures forall e :: e in m <==> exists i :: 0 <= i < |history| && history[i].electionId == e
    ensures forall e :: e in m ==> Truthy(m[e])
    decreases |history|
  {
    if history == [] then map[]
    else
      var init := history[..|history| - 1];
      var last := history[|history| - 1];
      var m := HistoryMapping(init)[last.electionId := Label(last)];
      assert forall i :: 0 <= i < |init| ==> init[i] == history[i];
      m
  }

  /** The position of the last history entry for election `e`, or -1 when there is none. */
  function LastIndex(history: seq<HistoryEntry>, e: Id): (i: int)
    ensures -1 <= i < |history|
    ensures i >= 0 ==> history[i].electionId == e
    ensures forall k :: i < k < |history| ==> history[k].electionId != e
    decreases |history|
  {
    if history == [] then -1
    else if history[|history| - 1].electionId == e then |history| - 1
    else LastIndex(history[..|history| - 1], e)
  }

  /** The label an election shows is the label of its last history entry. */
  lemma {:induction false} LastEntryWins(history: seq<HistoryEntry>, e: Id)
    ensures e in HistoryMapping(history) <==> LastIndex(history, e) >= 0
    ensures e in HistoryMapping(history) ==> HistoryMapping(history)[e] == Label(history[LastIndex(history, e)])
    decreases |history|
  {
    if history != [] {
      var n := |history| - 1;
      var init := history[..n];
      assert HistoryMapping(history) == HistoryMapping(init)[history[n].electionId := Label(history[n])];
      if history[n].electionId != e {
        LastEntryWins(init, e);
        assert LastIndex(history, e) == LastIndex(init, e);
        if LastIndex(init, e) >= 0 {
          assert history[LastIndex(init, e)] == init[LastIndex(init, e)];
        }
      }
    }
  }

  /** `!!votedElections[id]`. */
  predicate HasVoted(mapping: map<Id, string>, e: Id) {
    e in mapping && Truthy(mapping[e])
  }

  /** A card is marked voted exactly when the loaded history has an entry for it. */
  lemma HasVotedIffEntry(history: seq<HistoryEntry>, e: Id)
    ensures HasVoted(HistoryMapping(history), e) <==> exists i :: 0 <= i < |history| && history[i].electionId == e
  {
  }

  /** Against the server: a card is marked voted exactly when the voter holds a ballot in
      that election, whatever has since happened to the candidate. */
  lemma HasVotedIffBallot(s: Store, voter: Id, e: Id)
    ensures HasVoted(HistoryMapping(VoteHistory(s, voter)), e) <==> HasBallot(s.ballots, voter, e)
  {
    HasVotedIffEntry(VoteHistory(s, voter), e);
    HistoryIffBallot(s, voter, e);
  }

  /** After a successful vote the dashboard reloads the history, and the card turns to voted. */
  lemma VotedAfterCast(s: Store, voter: Id, e: Id, c: Id, now: Time)
    requires CastVote(s, voter, e, c, now).1.Success?
    ensures HasVoted(HistoryMapping(VoteHistory(CastVote(s, voter, e, c, now).0, voter)), e)
  {
    var s' := CastVote(s, voter, e, c, now).0;
    assert s'.ballots[|s'.ballots| - 1] == Ballot(voter, c, e, now);
    assert HasBallot(s'.ballots, voter, e);
    HasVotedIffBallot(s', voter, e);
  }

  /** `fetchCandidates` against the per-election cache. Any cached entry, even an empty
      list, counts as present (an array is truthy), so no request is made; a failed
      request (`None`) leaves the cache as it was. */
  function FetchCandidatesCached<T>(cache: map<Id, seq<T>>, e: Id, reply: Option<seq<T>>): (r: map<Id, seq<T>>)
    ensures e in cache ==> r == cache
    ensures e !in cache && reply.Some? ==> r == cache[e := reply.value]
    ensures reply.None? ==> r == cache
    ensures r.Keys == cache.Keys + (if reply.Some? then {e} else {})
  {
    if e in cache then cache
    else match reply
      case None => cache
      case Some(list) => cache[e := list]
  }

  /** Once an election's list is cached it is never refreshed: a later fetch, whatever the
      server would answer, leaves the list shown unchanged. */
  lemma CacheNeverRefreshes<T>(cache: map<Id, seq<T>>, e: Id, first: seq<T>, later: Option<seq<T>>)
    ensures var c := FetchCandidatesCached(cache, e, Some(first));
            FetchCandidatesCached(c, e, later) == c && e in c
  {
  }

  /** Clicking "View Candidates"/"Close Ballot" on a card: selects it, or clears the
      selection when it was already selected. */
  function ClickCard(selected: Option<Id>, e: Id): (r: Option<Id>)
    ensures r == Some(e) <==> selected != Some(e)
    ensures r.Some? ==> r.value == e
  {
    if selected == Some(e) then None else Some(e)
  }

  /** The candidate list with voting buttons is open under a card only when that card is
      selected and not marked voted. */
  predicate BallotPanelShown(selected: Option<Id>, mapping: map<Id, string>, e: Id) {
    selected == Some(e) && !HasVoted(mapping, e)
  }

  /** At most one ballot panel is open: a click closes every other card's panel, opens the
      clicked card's unless it was open or already voted, and a second click on the same
      card undoes the first when no other card was open. */
  lemma OnePanelAtATime(selected: Option<Id>, mapping: map<Id, string>, e: Id, other: Id)
    ensures other != e ==> !BallotPanelShown(ClickCard(selected, e), mapping, other)
    ensures BallotPanelShown(ClickCard(selected, e), mapping, e) <==> selected != Some(e) && !HasVoted(mapping, e)
    ensures selected.None? || selected == Some(e) ==> ClickCard(ClickCard(selected, e), e) == selected
  {
  }

  /** With the history freshly loaded, the ballot panel never opens for an election the
      voter already holds a ballot in. */
  lemma NoPanelAfterVoting(s: Store, voter: Id, selected: Option<Id>, e: Id)
    requires HasBallot(s.ballots, voter, e)
    ensures !BallotPanelShown(selected, HistoryMapping(VoteHistory(s, voter)), e)
  {
    HasVotedIffBallot(s, voter, e);
  }
}
